=== FILE: README.md ===
# Grading workflow: shared state of the TA processes

A group of teaching-assistant processes grades a list of exams. They share one
record in a shared memory segment. The record holds the five rubric letters, the
student number of the current exam, the state of each of its five questions
(not started, in progress, done), the index of the current exam in the exam
list, and a `finished` flag. Each TA loops:

1. Check whether the run is over.
2. Review each rubric letter, and sometimes correct it. A correction increments
   the letter and rewrites the rubric file.
3. Claim and mark questions until none is left.
4. Try to move everyone on to the next exam.

There are two versions of the program. `part2b_101297950_101297761.c` guards the
record with two semaphores: one for the exam and question fields, one for the
rubric and its file. `part2a.c` uses no locks. Its advance step is written inline
and never waits for the questions to be done.

The model is functional. Each critical section is one pure function over an
immutable `State`. The TA processes become a transition system. In it, each
worker has a program counter (`Workers.Pc`) and a scheduler interleaves their
atomic steps. A `Mode` parameter selects the synchronized or the unsynchronized
advance.

- `shared_data.dfy` (`SharedData`): the record, `load_exam`, `all_questions_done`,
  `select_question`, the mark-done section, the exit test, and the record
  invariant.
- `text_format.dfy` (`TextFormat`): `trim_newline`, the exam-list loop of `main`,
  and the rubric file format. `save_rubric` writes `n, c` lines and `load_rubric`
  reads them back with `fscanf("%d %c %c")`.
- `transitions.dfy` (`Transitions`): the rubric correction, `try_load_next_exam`,
  the inline advance of the unsynchronized program, its lock-free
  `select_question`, and `main` up to the fork.
- `workers.dfy` (`Workers`): the worker loop as steps, the invariants of the
  synchronized program over any schedule, monotonicity in both programs,
  concrete schedules that show where the unsynchronized program goes wrong, and
  the two-exam scenario (exam 1 of student 1001, then the sentinel 9999).

How the model represents the source:

- A C `char` is a `Byte`, a `char` below 256, read as its unsigned bit pattern.
  `old + 1` is taken modulo 256: byte 127 (signed 127) becomes byte 128 (the
  pattern of signed -128), and byte 255 (signed -1) becomes 0.
- Exam files are a map from file name to student number. A name missing from
  the map stands for a file that cannot be opened or has no number in it.
- Every `exit(1)` path becomes a `Fatal` result, except the `fopen` failures of
  the rubric file (see "Left out").
- The rubric before `load_rubric` is five zero bytes, because a fresh shared
  memory segment is zero-filled. Slots that no rubric line names keep that value.
- The coin flip `rand() % 2` is the `coin` field of an `Event`.
- The sleeps are not modelled: they only move time forward.

## Model

| member | source | states |
|---|---|---|
| SharedData.LoadExam | part2b_101297950_101297761.c:95-105 | the student number is stored, all five questions become NotStarted, `finished` is set exactly when it was already set or the student is 9999 (never cleared), rubric and cursor unchanged |
| SharedData.LoadExamFile | part2b_101297950_101297761.c:80-105 | loading fails (fatal) exactly when the exam file has no student number; otherwise it is the state part of the load |
| SharedData.LoadExamIdempotent | part2b_101297950_101297761.c:95-105 | loading the same student twice gives the same state as loading it once |
| SharedData.LoadExamForgetsProgress | part2b_101297950_101297761.c:97-100 | the loaded state does not depend on the question progress before the load, and a set `finished` survives the load |
| SharedData.AllDoneFrom | part2b_101297950_101297761.c:110-115 | the early-exit loop returns true iff every question from index i on is Done |
| SharedData.AllQuestionsDone | part2b_101297950_101297761.c:109-116 | true iff all five questions are Done |
| SharedData.FirstNotStarted | part2b_101297950_101297761.c:124-130 | the scan returns the lowest NotStarted index at or after i, or -1 exactly when there is none |
| SharedData.SelectQuestion | part2b_101297950_101297761.c:120-134 | returns the lowest NotStarted index and makes exactly that entry InProgress, every other entry and field unchanged; returns -1 exactly when no entry is NotStarted, and then changes nothing |
| SharedData.MarkDone | part2b_101297950_101297761.c:266-269 | only the marked question changes, to Done |
| SharedData.ShouldExitIffFinished | part2b_101297950_101297761.c:198-207 | when the record invariant holds, the exit test "finished or student 9999" is equivalent to `finished` alone, because a sentinel load always sets `finished` |
| TextFormat.TrimNewline | part2a.c:26-28 | the result is a prefix of the input with no '\r' or '\n', and it stops only at a line end or at the end of the input |
| TextFormat.TrimNewlineLongest | part2a.c:26-28 | every line-end-free prefix of the input is a prefix of the result, so the result is the longest such prefix |
| TextFormat.TrimNewlineIdempotent | part2a.c:26-28 | trimming twice equals trimming once |
| TextFormat.KeptPrefix | part2a.c:254-261 | the names kept from a prefix of the input lines are a prefix of the names kept from all of them |
| TextFormat.KeptNames | part2a.c:256-259 | every kept name is non-empty and contains no line end |
| TextFormat.ReadExamList | part2a.c:254-261 | the loop keeps the trimmed non-empty lines in input order, stops after MAX_EXAMS (20) of them, and returns exactly the first min(20, n) kept names |
| TextFormat.SaveFromLayout | part2b_101297950_101297761.c:72-74 | the lines written from question i on are five bytes each, in order |
| TextFormat.SaveRubric | part2b_101297950_101297761.c:65-77 | the file has exactly NUM_QUESTIONS lines, and line k is `k+1, rubric[k]` followed by a newline |
| TextFormat.SkipSpace | part2b_101297950_101297761.c:48 | what a whitespace directive leaves is empty or starts with a non-space character, and is no longer than the input (pinned down by TextFormat.SkipSpaceSuffix, with TextFormat.SkipSpaceAppend and TextFormat.SkipSpaceAll) |
| TextFormat.SkipSpaceSuffix | part2b_101297950_101297761.c:48 | the directive removes a prefix made only of whitespace and leaves the rest of the input as it is |
| TextFormat.SkipSpaceAppend | part2b_101297950_101297761.c:48 | whitespace followed by a non-space character is skipped exactly up to that character |
| TextFormat.ScanDigits | part2b_101297950_101297761.c:48 | `%d` consumes the whole run of digits, at least one when there is one |
| TextFormat.ScanInt | part2b_101297950_101297761.c:48 | a successful `%d` consumes input and stops only before a non-digit |
| TextFormat.ScanChar | part2b_101297950_101297761.c:48 | `" %c"` never stores whitespace, and fails exactly when only whitespace is left |
| TextFormat.ScanRecord | part2b_101297950_101297761.c:48 | neither character `fscanf("%d %c %c")` stores is whitespace, and a record consumes input |
| TextFormat.LoadFrom | part2b_101297950_101297761.c:47-59 | the only errors are a format error on one of the remaining lines or a question number out of range. Which error each line gives is stated by TextFormat.LoadLine, TextFormat.LoadLineOutOfRange, TextFormat.LoadBadLine, TextFormat.LoadTruncatedLine and TextFormat.LoadEndOfInput |
| TextFormat.LoadRubric | part2b_101297950_101297761.c:36-62 | the only errors are a format error on one of lines 1..5 or a question number out of range. Line by line: a number in 1..5 stores its letter (TextFormat.LoadLine); any other number is out of range (TextFormat.LoadLineOutOfRange); a line that cannot start a number, a line cut off after its number, or the end of the file is a format error on that line (TextFormat.LoadBadLine, TextFormat.LoadTruncatedLine, TextFormat.LoadEndOfInput) |
| TextFormat.ScanIntDigit | part2b_101297950_101297761.c:48 | `%d` after whitespace reads one digit and stops before the separator |
| TextFormat.ScanCharNext | part2b_101297950_101297761.c:48 | a whitespace directive followed by `%c` reads the next non-space character |
| TextFormat.ScanDigitsRun | part2b_101297950_101297761.c:48 | `%d` reads a whole run of digits, of any length, as its place-value decimal value (TextFormat.DigitsValue) and stops at the first non-digit |
| TextFormat.ScanIntField | part2b_101297950_101297761.c:48 | `%d` after any whitespace, an optional `-` or `+` and any non-empty run of digits reads the signed decimal value and stops right after the digits |
| TextFormat.ScanLine | part2b_101297950_101297761.c:48 | a line "<signed digits><sep> c" after any whitespace scans as (value, sep, c), whatever the non-digit separator |
| TextFormat.LoadLine | part2b_101297950_101297761.c:47-58 | at any line position, a line whose signed digit string has value n in 1..5 (so "3", "+3" and "03" alike) stores its letter in slot n-1 and changes nothing else. Reading goes on with the next line. The separator is not checked |
| TextFormat.LoadLineOutOfRange | part2b_101297950_101297761.c:53-57 | at any line position, a line whose signed digit string has a value outside 1..5 (0, 6, 12, -3, ...) aborts the load with the out-of-range error |
| TextFormat.LoadBadLine | part2b_101297950_101297761.c:48-51 | at any line position, a line whose first non-space character is not a digit or a sign is a format error on that line |
| TextFormat.LoadEndOfInput | part2b_101297950_101297761.c:48-51 | when only whitespace is left before line i+1, the load fails with a format error on line i+1 |
| TextFormat.LoadTruncatedLine | part2b_101297950_101297761.c:48-51 | a line with a number but nothing except whitespace after it is a format error on that line |
| TextFormat.EmptyOrNonNumericRubricRejected | part2b_101297950_101297761.c:36-62 | an empty rubric file, and one whose first line is "X, A", are both rejected with a format error on line 1 |
| TextFormat.TwelveIsOutOfRange | part2b_101297950_101297761.c:48-57 | "12" reads as twelve and "05" as five, and a rubric whose first line is "12, X" is rejected as out of range |
| TextFormat.ScanSavedLine | part2b_101297950_101297761.c:73 | one line written by save_rubric scans back as the record (question number, ',', letter) |
| TextFormat.LoadSavedLine | part2b_101297950_101297761.c:58 | loading one saved line stores its letter at its own slot |
| TextFormat.LoadSavedFrom | part2b_101297950_101297761.c:47-59 | loading saved lines i..5 restores the rubric whatever the slots held before |
| TextFormat.SaveLoadRoundTrip | part2b_101297950_101297761.c:36-77 | loading the text written by save_rubric restores the rubric, for any earlier content, when no letter is whitespace |
| TextFormat.SkipSpaceAll | part2b_101297950_101297761.c:48 | a whitespace directive on all-space input reaches the end of the input |
| TextFormat.ScanSpaceLetterLine | part2b_101297950_101297761.c:48 | a saved line whose letter is whitespace does not scan as a record |
| TextFormat.LastLineSpaceLetter | part2b_101297950_101297761.c:48-52 | a whitespace letter on the last saved line is a format error on line 5 |
| TextFormat.SpaceLetterFrom | part2b_101297950_101297761.c:47-52 | saved lines i..4 with non-space letters followed by a fifth line with a whitespace letter are a format error on line 5 |
| TextFormat.WhitespaceLetterIsLost | part2b_101297950_101297761.c:48 | the side condition of the round trip is needed: a whitespace letter in slot 5 makes the saved file fail to load |
| Transitions.NextLetter | part2b_101297950_101297761.c:233-235 | the corrected letter is the next character, and 255 wraps to 0 |
| Transitions.CorrectRubric | part2b_101297950_101297761.c:231-243 | only `rubric[q]` changes, to the next character (old+1 below 127); every other letter and field is unchanged; the text written to disk is the saved form of the new rubric |
| Transitions.CorrectionReloads | part2b_101297950_101297761.c:231-243 | the file a correction writes loads back to the corrected rubric, whatever the slots held before, when no letter is whitespace |
| Transitions.TryLoadNextExam | part2b_101297950_101297761.c:149-185 | no change when `finished` is set or some question is not Done (so none while a question is InProgress). Otherwise it either sets `finished` with the cursor unchanged when no exam is left, or loads the next exam with all questions NotStarted and the cursor exactly old+1. A load sets `finished` iff the loaded student is 9999. It is fatal iff that exam file is unreadable. The cursor never decreases and `finished` never clears |
| Transitions.InlineAdvance | part2a.c:206-221 | no change when `finished` is set; otherwise, whatever the question states, it finishes when no exam is left or loads the next exam with the cursor old+1, finishing iff the loaded student is 9999 |
| Transitions.AdvancesAgreeWhenAllDone | part2a.c:206-221 | when every question is Done, the inline advance equals the guarded one |
| Transitions.AdvancesKeepInv | part2b_101297950_101297761.c:166-182 | both advances keep the record invariant: cursor inside the list, student matching the exam file under the cursor, sentinel student implies finished |
| Transitions.UnsyncSelectQuestion | part2a.c:115-123 | the lock-free early-return scan, taken as one step, returns exactly what the synchronized select returns |
| Transitions.Init | part2b_101297950_101297761.c:305-355 | an empty exam list is fatal, and is the only way to get that error. Otherwise, a rubric text that does not load is fatal with that load's error. Otherwise, the start succeeds exactly when the first kept exam name has a record, and it fails naming that exam. After a successful start: the cursor is 0, all questions are NotStarted, and `finished` is set iff the first student is 9999. The rubric is what the rubric file loads to, and the record invariant holds |
| Workers.Step | part2b_101297950_101297761.c:196-277 | a step moves only the worker named by its event, and keeps the number of workers |
| Workers.AdvanceLoadFailureIsFatal | part2b_101297950_101297761.c:81-92 | an advance, in either program, whose next exam file cannot be read ends the whole run with that exam's error |
| Workers.Start | part2b_101297950_101297761.c:359-371 | the forked configuration has every worker at the top of its loop |
| Workers.StartSyncInv | part2b_101297950_101297761.c:337-355 | the start configuration satisfies the synchronized invariant |
| Workers.RubricUntouched | part2b_101297950_101297761.c:248-270 | a step that changes neither the rubric nor its file keeps the file holding the rubric |
| Workers.ClaimKeepsClaims | part2b_101297950_101297761.c:248-253 | a claim takes a question no other worker holds and keeps every held claim InProgress on the exam it was claimed on |
| Workers.ClaimKeepsSyncInv | part2b_101297950_101297761.c:248-253 | a claim keeps every held claim InProgress on its own exam, and no two workers hold the same question |
| Workers.MarkKeepsClaims | part2b_101297950_101297761.c:266-269 | a mark releases the worker's own claim and leaves the other claims InProgress and exclusive |
| Workers.MarkKeepsSyncInv | part2b_101297950_101297761.c:266-269 | marking a held claim keeps the invariant for the other claims |
| Workers.AdvanceKeepsSyncInv | part2b_101297950_101297761.c:153-185 | the guarded advance keeps the invariant, because it never fires while a claim is held |
| Workers.ReviewKeepsSyncInv | part2b_101297950_101297761.c:214-245 | a rubric review, with or without correction, keeps the invariant, and the rubric file still holds the rubric |
| Workers.SyncStepKeepsInv | part2b_101297950_101297761.c:196-277 | every step of the synchronized program keeps the invariant |
| Workers.SyncRunKeepsInv | part2b_101297950_101297761.c:196-277 | every configuration reached by any synchronized schedule satisfies the invariant (exclusive claims, claims on the current exam, exited workers only once finished, rubric persisted) |
| Workers.SyncMarkHitsClaimedExam | part2b_101297950_101297761.c:266-269 | in the synchronized program a mark turns its InProgress question to Done on the exam it was claimed on |
| Workers.SyncAdvanceNeedsAllDone | part2b_101297950_101297761.c:160-164 | in the synchronized program the cursor moves only off an exam whose questions are all Done |
| Workers.WorkerExitTest | part2a.c:147-160 | a worker at the top of its loop exits exactly when `finished` is set or the student is 9999; otherwise it starts the rubric review; the record is untouched |
| Workers.RunAppend | part2b_101297950_101297761.c:196-277 | running two schedules one after the other is running their concatenation |
| Workers.StepMonotone | part2b_101297950_101297761.c:166-182 | in either program, one step keeps the record invariant, moves the cursor by at most one, and never clears `finished`. `finished` becomes set only when the current student is 9999 or no exam follows the current one |
| Workers.RunMonotone | part2b_101297950_101297761.c:166-182 | in either program, over any schedule, the cursor never decreases, grows by at most one per event, and `finished` never goes from set to clear |
| Workers.ExitedStaysExited | part2b_101297950_101297761.c:203-207 | a worker that left its loop stays out |
| Workers.RacingSyncInv | part2b_101297950_101297761.c:248-270 | the racing configuration (one claim held, another worker about to advance) is a legal synchronized configuration for any rubric and any rubric file that loads to it |
| Workers.SyncAdvanceWaitsForClaim | part2b_101297950_101297761.c:160-164 | with a question held InProgress, the synchronized advance is a no-op |
| Workers.UnsyncAdvanceStrandsClaim | part2a.c:206-221 | from the same configuration the inline advance loads the next exam, so the held claim now points at a NotStarted question of an exam it was not claimed on |
| Workers.BothAdvancingSyncInv | part2b_101297950_101297761.c:160-164 | two workers both about to advance off a fully marked exam is a legal synchronized configuration |
| Workers.FirstAdvance | part2b_101297950_101297761.c:166-182 | the first of the two advances loads the second exam, the same in both programs |
| Workers.UnsyncDoubleAdvanceSkipsExam | part2a.c:206-221 | two workers that both reach the inline advance move the cursor by two, onto the third exam's student, skipping an exam nobody graded |
| Workers.SyncSecondAdvanceWaits | part2b_101297950_101297761.c:160-164 | synchronized, the second advance finds the new exam unmarked and changes nothing but its own program counter |
| Workers.RunTrace | part2b_101297950_101297761.c:196-277 | a schedule whose every step result is known ends in the last known configuration |
| Workers.RunFrom | part2b_101297950_101297761.c:196-277 | running a schedule from its k-th event is one step followed by the run from event k+1 |
| Workers.ScenarioFinish | part2b_101297950_101297761.c:196-277 | from the last claim of the first exam, the run marks the last question, advances onto the sentinel exam and both workers exit |
| Workers.ScenarioMoreMarks | part2b_101297950_101297761.c:248-270 | from the second claim, questions 1 to 3 (counting from 0) are claimed and marked in order and the run then ends as above |
| Workers.ScenarioFirstMarks | part2b_101297950_101297761.c:214-270 | from the end of the rubric review, with any rubric, the run ends with the sentinel loaded, `finished` set and both workers exited |
| Workers.TwoExamScenario | part2b_101297950_101297761.c:196-277 | exams [1001, 9999] with two workers: all five questions of the first exam get marked, the cursor moves to 1, the sentinel is loaded, `finished` is set, both workers exit, and the rubric file holds the saved form of the rubric with the one correction, for any starting rubric and rubric file |

## Left out

- Processes, shared memory and semaphores (`fork`, `shmget`/`shmat`, `sem_init`/`sem_wait`/`sem_post`, `wait`): each locked region is one atomic step, and the scheduler is an arbitrary sequence of events.
- The races inside one step of the unsynchronized program, such as torn reads or a claim interleaved with another claim. Each of its sections is modelled as one atomic step. Only the missing "all done" guard of its advance is modelled as a difference.
- Liveness (every run eventually finishes and every worker exits). It needs a fairness assumption about the scheduler. Only the two-exam scenario is shown to reach the end.
- `usleep`, `srand` and `rand`: delays are nothing, and the correction coin is part of each event.
- `printf`/`fflush` logging, and the unlocked reads done only for logging (the exam index at part2b_101297950_101297761.c:209-211, the rubric letter read under the wrong semaphore at 218-220).
- A worker that dies in `load_exam` (part2b_101297950_101297761.c:81-92) while holding the state semaphore leaves the other workers blocked. The model ends the whole run with `Fatal` instead (Workers.AdvanceLoadFailureIsFatal).
- In part2a.c the same failure (part2a.c:75-87, called at 218) happens with no lock held. Only the failing worker exits. The others keep marking, and may keep correcting and rewriting the rubric file, until they too reach the unreadable exam. The model ends the run at the first failure in this program too.
- File I/O: `fopen` failures, and `fgets` splitting lines longer than `MAX_NAME`. A rubric file that cannot be opened for reading (part2b_101297950_101297761.c:37-41) or for writing (part2b_101297950_101297761.c:66-70) exits the run there. The model has no such error: `Transitions.Init` takes the rubric text as given, and `Transitions.CorrectRubric` always succeeds. The exam list arrives as lines, the rubric file as text, and exam files as a name-to-student map.
- Exam names are C strings, so a NUL byte ends a name. A line that starts with NUL is skipped at part2a.c:256-257, and a NUL inside a line shortens the name. `TextFormat.TrimNewline` and `TextFormat.Kept` treat NUL as an ordinary character and keep such lines.
- `atoi` parsing of the TA count, the "at least 2 TAs" check, and the process exit codes: the number of workers is a parameter of `Workers.Start`.
- TextFormat.ScanInt: `%d` overflow is not modelled (the value is an unbounded integer), and neither are the locale-dependent parts of `fscanf`.
- Transitions.NextLetter: states the byte-level wrap-around that `gcc` produces. C leaves the conversion of an out-of-range value to signed `char` implementation-defined.

=== FILE: shared_data.dfy ===
/** The record every TA process sees through the shared memory segment,
    and the small operations on it that both the synchronized and the
    unsynchronized program share: loading an exam, the "all done" test,
    claiming a question, marking it done and the worker's exit test.
    A critical section of the original is one pure function here. */
module SharedData {

  const NUM_QUESTIONS: nat := 5
  const MAX_EXAMS: nat := 20
  /** Student number that ends the run when an exam carries it. */
  const SENTINEL_STUDENT: int := 9999

  /** One C `char` cell, identified with its unsigned byte value. */
  type Byte = c: char | c as int < 256

  /** Index of a question, 0 .. NUM_QUESTIONS-1. */
  type QIndex = i: int | 0 <= i < NUM_QUESTIONS

  /** Rubric letters, one per question. */
  type Rubric = r: seq<Byte> | |r| == NUM_QUESTIONS witness ['\0', '\0', '\0', '\0', '\0']

  /** Per-question progress: 0, 1 and 2 in the original. */
  datatype QState = NotStarted | InProgress | Done

  type Progress = p: seq<QState> | |p| == NUM_QUESTIONS
    witness [NotStarted, NotStarted, NotStarted, NotStarted, NotStarted]

  /** The shared record (the semaphores are not data and are left out). */
  datatype State = State(
    rubric: Rubric,
    currentStudent: int,
    questionState: Progress,
    examIndex: nat,
    finished: bool)

  /** Why the run aborts; every fatal path of the original exits with status 1. */
  datatype FatalError =
    | NoExamsListed
    | ExamUnreadable(name: string)
    | RubricFormat(line: nat)
    | RubricQuestionOutOfRange

  datatype Result<T> = Ok(value: T) | Fatal(error: FatalError)

  datatype Option<T> = None | Some(value: T)

  /** What the run reads from disk: the ordered exam file names and, for each
      readable exam file, the student number it starts with. A name missing
      from `records` is a file that cannot be opened or holds no number. */
  datatype Env = Env(exams: seq<string>, records: map<string, int>)

  const AllNotStarted: Progress := [NotStarted, NotStarted, NotStarted, NotStarted, NotStarted]

  /** The state part of load_exam: the student number is stored, every
      question is reset and the sentinel student sets `finished`. */
  function LoadExam(s: State, student: int): (t: State)
    ensures t.currentStudent == student
    ensures forall i :: 0 <= i < NUM_QUESTIONS ==> t.questionState[i] == NotStarted
    ensures t.finished <==> s.finished || student == SENTINEL_STUDENT
    ensures t.rubric == s.rubric && t.examIndex == s.examIndex
  {
    s.(currentStudent := student,
       questionState := AllNotStarted,
       finished := s.finished || student == SENTINEL_STUDENT)
  }

  /** load_exam including its file read: an unreadable exam is fatal. */
  function LoadExamFile(s: State, records: map<string, int>, name: string): (r: Result<State>)
    ensures r.Fatal? <==> name !in records
    ensures r.Ok? ==> r.value == LoadExam(s, records[name])
  {
    if name in records then Ok(LoadExam(s, records[name]))
    else Fatal(ExamUnreadable(name))
  }

  /** Loading the same student twice leaves the same state as loading it once. */
  lemma LoadExamIdempotent(s: State, student: int)
    ensures LoadExam(LoadExam(s, student), student) == LoadExam(s, student)
  {
  }

  /** Loading never clears `finished`, and two loads of one student from the
      same state agree whatever the question progress was before. */
  lemma LoadExamForgetsProgress(s: State, p: Progress, student: int)
    ensures LoadExam(s.(questionState := p), student) == LoadExam(s, student)
    ensures s.finished ==> LoadExam(s, student).finished
  {
  }

  /** The loop of all_questions_done from index `i` on. */
  function AllDoneFrom(p: Progress, i: nat): (r: bool)
    requires i <= NUM_QUESTIONS
    ensures r <==> forall j :: i <= j < NUM_QUESTIONS ==> p[j] == Done
    decreases NUM_QUESTIONS - i
  {
    if i == NUM_QUESTIONS then true
    else if p[i] != Done then false
    else AllDoneFrom(p, i + 1)
  }

  /** all_questions_done: true exactly when every question is Done. */
  function AllQuestionsDone(s: State): (r: bool)
    ensures r <==> forall j :: 0 <= j < NUM_QUESTIONS ==> s.questionState[j] == Done
  {
    AllDoneFrom(s.questionState, 0)
  }

  /** The scan of select_question from index `i` on: the first NotStarted
      index, or -1 when there is none. */
  function FirstNotStarted(p: Progress, i: nat): (r: int)
    requires i <= NUM_QUESTIONS
    ensures r == -1 <==> forall j :: i <= j < NUM_QUESTIONS ==> p[j] != NotStarted
    ensures r != -1 ==> i <= r < NUM_QUESTIONS && p[r] == NotStarted
    ensures r != -1 ==> forall j :: i <= j < r ==> p[j] != NotStarted
    decreases NUM_QUESTIONS - i
  {
    if i == NUM_QUESTIONS then -1
    else if p[i] == NotStarted then i
    else FirstNotStarted(p, i + 1)
  }

  /** Outcome of a claim: the question index (-1 for none) and the new state. */
  datatype Claim = Claim(q: int, state: State)

  /** select_question: claim the lowest NotStarted question. */
  function SelectQuestion(s: State): (c: Claim)
    ensures c.q == -1 <==> forall j :: 0 <= j < NUM_QUESTIONS ==> s.questionState[j] != NotStarted
    ensures c.q == -1 ==> c.state == s
    ensures c.q != -1 ==>
      && 0 <= c.q < NUM_QUESTIONS
      && s.questionState[c.q] == NotStarted
      && (forall j :: 0 <= j < c.q ==> s.questionState[j] != NotStarted)
      && c.state.questionState[c.q] == InProgress
      && (forall j :: 0 <= j < NUM_QUESTIONS && j != c.q ==>
            c.state.questionState[j] == s.questionState[j])
      && c.state.rubric == s.rubric
      && c.state.currentStudent == s.currentStudent
      && c.state.examIndex == s.examIndex
      && c.state.finished == s.finished
  {
    var q := FirstNotStarted(s.questionState, 0);
    if q == -1 then Claim(-1, s)
    else Claim(q, s.(questionState := s.questionState[q := InProgress]))
  }

  /** The mark-done section of a worker: question q becomes Done. */
  function MarkDone(s: State, q: QIndex): (t: State)
    ensures t.questionState[q] == Done
    ensures forall j :: 0 <= j < NUM_QUESTIONS && j != q ==> t.questionState[j] == s.questionState[j]
    ensures t.rubric == s.rubric && t.currentStudent == s.currentStudent
    ensures t.examIndex == s.examIndex && t.finished == s.finished
  {
    s.(questionState := s.questionState[q := Done])
  }

  /** The worker's loop exit test. */
  predicate ShouldExit(s: State) {
    s.finished || s.currentStudent == SENTINEL_STUDENT
  }

  /** What holds of the record at every point of a run: the cursor is inside
      the exam list, the current student is the one stored in the exam file
      the cursor names, and a sentinel student has set `finished`. */
  predicate Inv(s: State, env: Env) {
    && s.examIndex < |env.exams|
    && env.exams[s.examIndex] in env.records
    && env.records[env.exams[s.examIndex]] == s.currentStudent
    && (s.currentStudent == SENTINEL_STUDENT ==> s.finished)
  }

  /** Under the invariant the two halves of the exit test collapse into one:
      a worker leaves its loop exactly when `finished` is set. */
  lemma ShouldExitIffFinished(s: State, env: Env)
    requires Inv(s, env)
    ensures ShouldExit(s) <==> s.finished
  {
  }
}

=== FILE: text_format.dfy ===
/** The small text pieces around the shared record: trimming a line read by
    fgets, filtering the exam list, and the rubric file format written by
    save_rubric and read back by load_rubric with fscanf("%d %c %c"). */
module TextFormat {
  import opened SharedData

  predicate IsLineEnd(c: char) {
    c == '\r' || c == '\n'
  }

  /** trim_newline: cut the string at its first '\r' or '\n'. */
  function TrimNewline(s: string): (r: string)
    ensures r <= s
    ensures forall i :: 0 <= i < |r| ==> !IsLineEnd(r[i])
    ensures |r| < |s| ==> IsLineEnd(s[|r|])
  {
    if |s| == 0 || IsLineEnd(s[0]) then []
    else [s[0]] + TrimNewline(s[1..])
  }

  /** The result is the longest line-end-free prefix: any other prefix
      without a line end is a prefix of it. */
  lemma TrimNewlineLongest(s: string, p: string)
    requires p <= s
    requires forall i :: 0 <= i < |p| ==> !IsLineEnd(p[i])
    ensures p <= TrimNewline(s)
  {
  }

  /** Trimming twice is trimming once. */
  lemma TrimNewlineIdempotent(s: string)
    ensures TrimNewline(TrimNewline(s)) == TrimNewline(s)
  {
  }

  /** The names the exam-list loop keeps from `lines`, with no count limit:
      each line trimmed, empty results dropped, input order kept. */
  function Kept(lines: seq<string>): seq<string>
  {
    if |lines| == 0 then []
    else
      var name := TrimNewline(lines[|lines| - 1]);
      Kept(lines[..|lines| - 1]) + (if name == [] then [] else [name])
  }

  lemma {:induction false} KeptPrefix(lines: seq<string>, i: nat)
    requires i <= |lines|
    ensures Kept(lines[..i]) <= Kept(lines)
    decreases |lines|
  {
    if i < |lines| {
      var init := lines[..|lines| - 1];
      assert lines[..i] == init[..i];
      KeptPrefix(init, i);
    } else {
      assert lines[..i] == lines;
    }
  }

  lemma {:induction false} KeptNames(lines: seq<string>)
    ensures forall k :: 0 <= k < |Kept(lines)| ==>
      Kept(lines)[k] != [] && forall j :: 0 <= j < |Kept(lines)[k]| ==> !IsLineEnd(Kept(lines)[k][j])
    decreases |lines|
  {
    if |lines| > 0 {
      KeptNames(lines[..|lines| - 1]);
    }
  }

  /** The exam-list loop of main: read lines while fewer than MAX_EXAMS
      names are kept; trim each, skip empty ones. */
  method ReadExamList(lines: seq<string>) returns (names: seq<string>)
    ensures |names| <= MAX_EXAMS
    ensures |Kept(lines)| <= MAX_EXAMS ==> names == Kept(lines)
    ensures |Kept(lines)| > MAX_EXAMS ==> names == Kept(lines)[..MAX_EXAMS]
    ensures forall k :: 0 <= k < |names| ==>
      names[k] != [] && forall j :: 0 <= j < |names[k]| ==> !IsLineEnd(names[k][j])
  {
    names := [];
    var i := 0;
    while |names| < MAX_EXAMS && i < |lines|
      invariant 0 <= i <= |lines|
      invariant names == Kept(lines[..i])
      invariant |names| <= MAX_EXAMS
    {
      var name := TrimNewline(lines[i]);
      assert lines[..i + 1][..i] == lines[..i];
      i := i + 1;
      if name == [] {
        continue;
      }
      names := names + [name];
    }
    KeptPrefix(lines, i);
    KeptNames(lines);
    if i == |lines| {
      assert lines[..i] == lines;
    }
  }

  // ---------------------------------------------------------------------
  // Rubric file: save_rubric writes "<n>, <letter>\n" for n = 1 .. 5.

  function DigitChar(n: nat): Byte
    requires n < 10
  {
    (48 + n) as char
  }

  function FormatLine(q: QIndex, letter: Byte): seq<Byte>
  {
    [DigitChar(q + 1), ',', ' ', letter, '\n']
  }

  function SaveFrom(r: Rubric, i: nat): seq<Byte>
    requires i <= NUM_QUESTIONS
    decreases NUM_QUESTIONS - i
  {
    if i == NUM_QUESTIONS then [] else FormatLine(i, r[i]) + SaveFrom(r, i + 1)
  }

  lemma {:induction false} SaveFromLayout(r: Rubric, i: nat)
    requires i <= NUM_QUESTIONS
    ensures |SaveFrom(r, i)| == 5 * (NUM_QUESTIONS - i)
    ensures forall k :: i <= k < NUM_QUESTIONS ==>
      SaveFrom(r, i)[5 * (k - i) .. 5 * (k - i) + 5] == FormatLine(k, r[k])
    decreases NUM_QUESTIONS - i
  {
    if i < NUM_QUESTIONS {
      SaveFromLayout(r, i + 1);
      var rest := SaveFrom(r, i + 1);
      var all := SaveFrom(r, i);
      assert all == FormatLine(i, r[i]) + rest;
      forall k | i < k < NUM_QUESTIONS
        ensures all[5 * (k - i) .. 5 * (k - i) + 5] == FormatLine(k, r[k])
      {
        assert all[5 * (k - i) .. 5 * (k - i) + 5] == rest[5 * (k - i - 1) .. 5 * (k - i - 1) + 5];
      }
    }
  }

  /** save_rubric: exactly NUM_QUESTIONS lines, line i reading "i+1, rubric[i]". */
  function SaveRubric(r: Rubric): (text: seq<Byte>)
    ensures |text| == 5 * NUM_QUESTIONS
    ensures forall k :: 0 <= k < NUM_QUESTIONS ==> text[5 * k .. 5 * k + 5] == FormatLine(k, r[k])
  {
    SaveFromLayout(r, 0);
    SaveFrom(r, 0)
  }

  // ---------------------------------------------------------------------
  // Rubric file: load_rubric reads five records with fscanf("%d %c %c").

  /** C isspace in the "C" locale. */
  predicate IsSpace(c: char) {
    c == ' ' || c == '\t' || c == '\n' || c == '\r' || c == '\U{0B}' || c == '\U{0C}'
  }

  predicate IsDigit(c: char) {
    '0' <= c <= '9'
  }

  /** A whitespace directive: drop leading whitespace. */
  function SkipSpace(t: seq<Byte>): (u: seq<Byte>)
    ensures |u| > 0 ==> !IsSpace(u[0])
    ensures |u| <= |t|
  {
    if |t| > 0 && IsSpace(t[0]) then SkipSpace(t[1..]) else t
  }

  /** Leading decimal digits of `t` read onto `acc`, and what follows them:
      the whole run of digits is consumed. */
  function ScanDigits(t: seq<Byte>, acc: nat): (r: (nat, seq<Byte>))
    ensures |r.1| <= |t| && (|r.1| > 0 ==> !IsDigit(r.1[0]))
    ensures |t| > 0 && IsDigit(t[0]) ==> |r.1| < |t|
  {
    if |t| > 0 && IsDigit(t[0]) then ScanDigits(t[1..], acc * 10 + (t[0] as int - 48))
    else (acc, t)
  }

  /** The %d conversion: whitespace, an optional sign, at least one digit.
      A conversion consumes input and stops only before a non-digit. */
  function ScanInt(t: seq<Byte>): (r: Option<(int, seq<Byte>)>)
    ensures r.Some? ==> |r.value.1| < |t| && (|r.value.1| > 0 ==> !IsDigit(r.value.1[0]))
  {
    var u := SkipSpace(t);
    var negative := |u| > 0 && u[0] == '-';
    var v := if |u| > 0 && (u[0] == '-' || u[0] == '+') then u[1..] else u;
    if |v| == 0 || !IsDigit(v[0]) then None
    else
      var (n, rest) := ScanDigits(v, 0);
      var value: int := if negative then -(n as int) else n;
      Some((value, rest))
  }

  /** A whitespace directive followed by %c: the next non-space character,
      which fails only when nothing but whitespace is left. */
  function ScanChar(t: seq<Byte>): (r: Option<(Byte, seq<Byte>)>)
    ensures r.Some? ==> !IsSpace(r.value.0) && |r.value.1| < |t|
    ensures r.None? <==> AllSpace(t)
  {
    SkipSpaceSuffix(t);
    var u := SkipSpace(t);
    if |u| == 0 then None else Some((u[0], u[1..]))
  }

  /** One "<qnum> <sep> <letter>" record as fscanf("%d %c %c") reads it. */
  datatype Record = Record(qnum: int, sep: Byte, letter: Byte)

  /** fscanf("%d %c %c"): neither character it stores is whitespace, and a
      successful record consumes input. */
  function ScanRecord(t: seq<Byte>): (r: Option<(Record, seq<Byte>)>)
    ensures r.Some? ==> !IsSpace(r.value.0.sep) && !IsSpace(r.value.0.letter)
    ensures r.Some? ==> |r.value.1| < |t|
  {
    match ScanInt(t)
    case None => None
    case Some((n, t1)) =>
      match ScanChar(t1)
      case None => None
      case Some((sep, t2)) =>
        match ScanChar(t2)
        case None => None
        case Some((letter, t3)) => Some((Record(n, sep, letter), t3))
  }

  /** Records i .. NUM_QUESTIONS-1 of load_rubric, storing into `acc`. */
  function LoadFrom(t: seq<Byte>, i: nat, acc: Rubric): (r: Result<Rubric>)
    requires i <= NUM_QUESTIONS
    ensures r.Fatal? ==> r.error == RubricQuestionOutOfRange || (r.error.RubricFormat? && i < r.error.line <= NUM_QUESTIONS)
    decreases NUM_QUESTIONS - i
  {
    if i == NUM_QUESTIONS then Ok(acc)
    else
      match ScanRecord(t)
      case None => Fatal(RubricFormat(i + 1))
      case Some((rec, rest)) =>
        if rec.qnum < 1 || rec.qnum > NUM_QUESTIONS then Fatal(RubricQuestionOutOfRange)
        else LoadFrom(rest, i + 1, acc[rec.qnum - 1 := rec.letter])
  }

  /** load_rubric over the file text; `prior` is the rubric before loading,
      which keeps every letter no record names. */
  function LoadRubric(text: seq<Byte>, prior: Rubric): (r: Result<Rubric>)
    ensures r.Fatal? ==> r.error == RubricQuestionOutOfRange || (r.error.RubricFormat? && 1 <= r.error.line <= NUM_QUESTIONS)
  {
    LoadFrom(text, 0, prior)
  }

  predicate AllSpace(w: seq<Byte>) {
    forall k :: 0 <= k < |w| ==> IsSpace(w[k])
  }

  lemma {:induction false} SkipSpaceAppend(w: seq<Byte>, u: seq<Byte>)
    requires AllSpace(w)
    requires |u| > 0 && !IsSpace(u[0])
    ensures SkipSpace(w + u) == u
    decreases |w|
  {
    if |w| == 0 {
      assert w + u == u;
    } else {
      assert (w + u)[1..] == w[1..] + u;
      SkipSpaceAppend(w[1..], u);
    }
  }

  /** SkipSpace drops exactly the leading whitespace: what it removes is all
      whitespace and what it leaves is the rest of the input. */
  lemma {:induction false} SkipSpaceSuffix(t: seq<Byte>)
    ensures |SkipSpace(t)| <= |t|
    ensures SkipSpace(t) == t[|t| - |SkipSpace(t)|..]
    ensures AllSpace(t[..|t| - |SkipSpace(t)|])
    decreases |t|
  {
    if |t| > 0 && IsSpace(t[0]) {
      SkipSpaceSuffix(t[1..]);
      var n := |t| - |SkipSpace(t)|;
      assert t[..n] == [t[0]] + t[1..][..n - 1];
    }
  }

  lemma ScanIntDigit(w: seq<Byte>, d: Byte, t: seq<Byte>)
    requires AllSpace(w)
    requires IsDigit(d)
    requires |t| > 0 && !IsDigit(t[0])
    ensures ScanInt(w + [d] + t) == Some((d as int - 48, t))
  {
    var dt := [d] + t;
    assert SkipSpace(w + [d] + t) == dt by {
      assert w + [d] + t == w + dt;
      SkipSpaceAppend(w, dt);
    }
    assert ScanDigits(dt, 0) == (d as int - 48, t) by {
      assert dt[1..] == t;
      assert ScanDigits(t, d as int - 48) == (d as int - 48, t);
    }
  }

  lemma ScanCharNext(w: seq<Byte>, c: Byte, t: seq<Byte>)
    requires AllSpace(w)
    requires !IsSpace(c)
    ensures ScanChar(w + [c] + t) == Some((c, t))
  {
    assert w + [c] + t == w + ([c] + t);
    SkipSpaceAppend(w, [c] + t);
    assert ([c] + t)[1..] == t;
  }

  /** 10 to the power n. */
  function Pow10(n: nat): (p: nat)
    ensures p >= 1
  {
    if n == 0 then 1 else 10 * Pow10(n - 1)
  }

  predicate AllDigits(ds: seq<Byte>) {
    forall k :: 0 <= k < |ds| ==> IsDigit(ds[k])
  }

  /** The decimal value of a digit string: each digit times its place value. */
  function DigitsValue(ds: seq<Byte>): nat
    requires AllDigits(ds)
  {
    if |ds| == 0 then 0 else (ds[0] as int - 48) * Pow10(|ds| - 1) + DigitsValue(ds[1..])
  }

  /** The optional sign in front of the digits of a `%d` field. */
  predicate IsSign(sign: seq<Byte>) {
    sign == [] || sign == ['-'] || sign == ['+']
  }

  function SignedValue(sign: seq<Byte>, ds: seq<Byte>): int
    requires AllDigits(ds)
  {
    if sign == ['-'] then -(DigitsValue(ds) as int) else DigitsValue(ds)
  }

  /** ScanDigits reads a whole run of digits onto `acc` as its decimal value. */
  lemma {:induction false} ScanDigitsRun(ds: seq<Byte>, t: seq<Byte>, acc: nat)
    requires AllDigits(ds)
    requires |t| == 0 || !IsDigit(t[0])
    ensures ScanDigits(ds + t, acc) == (acc * Pow10(|ds|) + DigitsValue(ds), t)
    decreases |ds|
  {
    if |ds| == 0 {
      assert ds + t == t;
    } else {
      var d := ds[0] as int - 48;
      assert ScanDigits(ds + t, acc) == ScanDigits(ds[1..] + t, acc * 10 + d) by {
        assert (ds + t)[0] == ds[0];
        assert (ds + t)[1..] == ds[1..] + t;
      }
      ScanDigitsRun(ds[1..], t, acc * 10 + d);
      ShiftPlace(acc, d, |ds| - 1);
    }
  }

  /** Appending a digit shifts what was read one place to the left. */
  lemma ShiftPlace(acc: int, d: int, n: nat)
    ensures (acc * 10 + d) * Pow10(n) == acc * Pow10(n + 1) + d * Pow10(n)
  {
    var p := Pow10(n);
    assert Pow10(n + 1) == 10 * p;
    assert (acc * 10 + d) * p == acc * (10 * p) + d * p;
  }

  /** `%d` on whitespace, an optional sign and a run of digits reads the
      signed decimal value of the digits and stops right after them. */
  lemma ScanIntField(w: seq<Byte>, sign: seq<Byte>, ds: seq<Byte>, t: seq<Byte>)
    requires AllSpace(w) && IsSign(sign)
    requires |ds| > 0 && AllDigits(ds)
    requires |t| == 0 || !IsDigit(t[0])
    ensures ScanInt(w + sign + ds + t) == Some((SignedValue(sign, ds), t))
  {
    var u := sign + ds + t;
    var v := ds + t;
    assert w + sign + ds + t == w + u;
    assert u[0] == (if sign == [] then ds[0] else sign[0]);
    SkipSpaceAppend(w, u);
    assert (if u[0] == '-' || u[0] == '+' then u[1..] else u) == v by {
      if sign != [] {
        assert u[1..] == v;
      } else {
        assert u == v;
      }
    }
    ScanDigitsRun(ds, t, 0);
  }

  /** A line "<sign><digits><sep> <letter>\n" after any whitespace scans as
      the record (value, sep, letter): the separator is read but its value is
      never checked. */
  lemma ScanLine(w: seq<Byte>, sign: seq<Byte>, ds: seq<Byte>, sep: Byte, letter: Byte, rest: seq<Byte>)
    requires AllSpace(w) && IsSign(sign) && |ds| > 0 && AllDigits(ds)
    requires !IsDigit(sep) && !IsSpace(sep) && !IsSpace(letter)
    ensures ScanRecord(w + sign + ds + [sep, ' ', letter, '\n'] + rest) ==
      Some((Record(SignedValue(sign, ds), sep, letter), ['\n'] + rest))
  {
    var t3: seq<Byte> := ['\n'] + rest;
    var t2: seq<Byte> := [letter] + t3;
    var t1: seq<Byte> := [' '] + t2;
    var t0: seq<Byte> := [sep] + t1;
    var text := w + sign + ds + [sep, ' ', letter, '\n'] + rest;
    assert ScanInt(text) == Some((SignedValue(sign, ds), t0)) by {
      assert text == w + sign + ds + t0;
      ScanIntField(w, sign, ds, t0);
    }
    assert ScanChar(t0) == Some((sep, t1)) by {
      assert t0 == [] + [sep] + t1;
      ScanCharNext([], sep, t1);
    }
    assert ScanChar(t1) == Some((letter, t3)) by {
      assert t1 == [' '] + [letter] + t3;
      ScanCharNext([' '], letter, t3);
    }
  }

  /** A saved line, after any leading whitespace, reads back as its record. */
  lemma ScanSavedLine(w: seq<Byte>, q: QIndex, letter: Byte, rest: seq<Byte>)
    requires AllSpace(w)
    requires !IsSpace(letter)
    ensures ScanRecord(w + FormatLine(q, letter) + rest) ==
      Some((Record(q + 1, ',', letter), ['\n'] + rest))
  {
    var d := DigitChar(q + 1);
    assert DigitsValue([d]) == q + 1;
    assert w + [] + [d] + [',', ' ', letter, '\n'] + rest == w + FormatLine(q, letter) + rest;
    ScanLine(w, [], [d], ',', letter, rest);
  }

  /** load_rubric on a line naming question n in 1..5, at any position i of
      the file and whatever the separator: the letter goes to slot n-1,
      nothing else changes, and reading goes on with the next line. */
  lemma LoadLine(w: seq<Byte>, sign: seq<Byte>, ds: seq<Byte>, sep: Byte, letter: Byte, rest: seq<Byte>,
                 i: nat, acc: Rubric)
    requires i < NUM_QUESTIONS
    requires AllSpace(w) && IsSign(sign) && |ds| > 0 && AllDigits(ds)
    requires !IsDigit(sep) && !IsSpace(sep) && !IsSpace(letter)
    requires 1 <= SignedValue(sign, ds) <= NUM_QUESTIONS
    ensures LoadFrom(w + sign + ds + [sep, ' ', letter, '\n'] + rest, i, acc) ==
      LoadFrom(['\n'] + rest, i + 1, acc[SignedValue(sign, ds) - 1 := letter])
  {
    var text := w + sign + ds + [sep, ' ', letter, '\n'] + rest;
    assert ScanRecord(text) == Some((Record(SignedValue(sign, ds), sep, letter), ['\n'] + rest)) by {
      ScanLine(w, sign, ds, sep, letter, rest);
    }
  }

  /** A line naming any question number outside 1..5 (0, 6, 12, -3, ...)
      aborts the load, at any position. */
  lemma LoadLineOutOfRange(w: seq<Byte>, sign: seq<Byte>, ds: seq<Byte>, sep: Byte, letter: Byte, rest: seq<Byte>,
                           i: nat, acc: Rubric)
    requires i < NUM_QUESTIONS
    requires AllSpace(w) && IsSign(sign) && |ds| > 0 && AllDigits(ds)
    requires !IsDigit(sep) && !IsSpace(sep) && !IsSpace(letter)
    requires !(1 <= SignedValue(sign, ds) <= NUM_QUESTIONS)
    ensures LoadFrom(w + sign + ds + [sep, ' ', letter, '\n'] + rest, i, acc) == Fatal(RubricQuestionOutOfRange)
  {
    var text := w + sign + ds + [sep, ' ', letter, '\n'] + rest;
    assert ScanRecord(text) == Some((Record(SignedValue(sign, ds), sep, letter), ['\n'] + rest)) by {
      ScanLine(w, sign, ds, sep, letter, rest);
    }
  }

  /** A line whose first non-space character cannot start a `%d` field
      (not a digit, not a sign) is a format error on that line. */
  lemma LoadBadLine(w: seq<Byte>, x: Byte, rest: seq<Byte>, i: nat, acc: Rubric)
    requires i < NUM_QUESTIONS
    requires AllSpace(w)
    requires !IsSpace(x) && !IsDigit(x) && x != '-' && x != '+'
    ensures LoadFrom(w + [x] + rest, i, acc) == Fatal(RubricFormat(i + 1))
  {
    assert w + [x] + rest == w + ([x] + rest);
    SkipSpaceAppend(w, [x] + rest);
  }

  /** A file that ends (or holds only whitespace) before line i+1 is a
      format error on line i+1; so an empty rubric file fails on line 1. */
  lemma LoadEndOfInput(w: seq<Byte>, i: nat, acc: Rubric)
    requires i < NUM_QUESTIONS
    requires AllSpace(w)
    ensures LoadFrom(w, i, acc) == Fatal(RubricFormat(i + 1))
  {
    SkipSpaceAll(w);
  }

  /** A line that stops after its number, with nothing but whitespace
      after it, is a format error on that line: the separator is missing. */
  lemma LoadTruncatedLine(w: seq<Byte>, sign: seq<Byte>, ds: seq<Byte>, t: seq<Byte>, i: nat, acc: Rubric)
    requires i < NUM_QUESTIONS
    requires AllSpace(w) && IsSign(sign) && |ds| > 0 && AllDigits(ds)
    requires AllSpace(t)
    ensures LoadFrom(w + sign + ds + t, i, acc) == Fatal(RubricFormat(i + 1))
  {
    assert ScanInt(w + sign + ds + t) == Some((SignedValue(sign, ds), t)) by {
      ScanIntField(w, sign, ds, t);
    }
  }

  /** Whole-file instances: an empty rubric file, and one whose first line
      is "X, A", are both rejected on line 1. */
  lemma EmptyOrNonNumericRubricRejected(prior: Rubric, rest: seq<Byte>)
    ensures LoadRubric([], prior) == Fatal(RubricFormat(1))
    ensures LoadRubric(['X', ',', ' ', 'A', '\n'] + rest, prior) == Fatal(RubricFormat(1))
  {
    LoadEndOfInput([], 0, prior);
    assert ['X', ',', ' ', 'A', '\n'] + rest == [] + ['X'] + ([',', ' ', 'A', '\n'] + rest);
    LoadBadLine([], 'X', [',', ' ', 'A', '\n'] + rest, 0, prior);
  }

  /** Two examples of the place-value reading: "12" is twelve, out of range;
      "05" is five. */
  lemma TwelveIsOutOfRange(acc: Rubric)
    ensures DigitsValue(['1', '2']) == 12 && DigitsValue(['0', '5']) == 5
    ensures LoadFrom(['1', '2', ',', ' ', 'X', '\n'], 0, acc) == Fatal(RubricQuestionOutOfRange)
  {
    assert DigitsValue(['2']) == 2;
    assert DigitsValue(['5']) == 5;
    assert ['1', '2', ',', ' ', 'X', '\n'] == [] + [] + ['1', '2'] + [',', ' ', 'X', '\n'] + [];
    LoadLineOutOfRange([], [], ['1', '2'], ',', 'X', [], 0, acc);
  }

  /** One saved line is consumed by one step of load_rubric. */
  lemma LoadSavedLine(r: Rubric, i: nat, w: seq<Byte>, acc: Rubric)
    requires i < NUM_QUESTIONS
    requires AllSpace(w)
    requires !IsSpace(r[i])
    ensures LoadFrom(w + SaveFrom(r, i), i, acc) ==
      LoadFrom(['\n'] + SaveFrom(r, i + 1), i + 1, acc[i := r[i]])
  {
    var rest := SaveFrom(r, i + 1);
    var text := w + SaveFrom(r, i);
    assert ScanRecord(text) == Some((Record(i + 1, ',', r[i]), ['\n'] + rest)) by {
      assert text == w + FormatLine(i, r[i]) + rest;
      ScanSavedLine(w, i, r[i], rest);
    }
  }

  lemma {:induction false} LoadSavedFrom(r: Rubric, i: nat, w: seq<Byte>, acc: Rubric)
    requires i <= NUM_QUESTIONS
    requires AllSpace(w)
    requires forall k :: i <= k < NUM_QUESTIONS ==> !IsSpace(r[k])
    requires forall k :: 0 <= k < i ==> acc[k] == r[k]
    ensures LoadFrom(w + SaveFrom(r, i), i, acc) == Ok(r)
    decreases NUM_QUESTIONS - i
  {
    if i == NUM_QUESTIONS {
      assert acc == r;
    } else {
      LoadSavedLine(r, i, w, acc);
      LoadSavedFrom(r, i + 1, ['\n'], acc[i := r[i]]);
    }
  }

  /** Saving a rubric and loading the file back restores it, whatever the
      rubric held before, as long as no letter is whitespace. */
  lemma SaveLoadRoundTrip(r: Rubric, prior: Rubric)
    requires forall k :: 0 <= k < NUM_QUESTIONS ==> !IsSpace(r[k])
    ensures LoadRubric(SaveRubric(r), prior) == Ok(r)
  {
    assert [] + SaveFrom(r, 0) == SaveFrom(r, 0);
    LoadSavedFrom(r, 0, [], prior);
  }

  lemma {:induction false} SkipSpaceAll(w: seq<Byte>)
    requires AllSpace(w)
    ensures SkipSpace(w) == []
    decreases |w|
  {
    if |w| > 0 {
      SkipSpaceAll(w[1..]);
    }
  }

  lemma ScanSpaceLetterLine(w: seq<Byte>, q: QIndex, letter: Byte)
    requires AllSpace(w)
    requires IsSpace(letter)
    ensures ScanRecord(w + FormatLine(q, letter)) == None
  {
    var d := DigitChar(q + 1);
    var t2: seq<Byte> := [' ', letter, '\n'];
    var t0: seq<Byte> := [','] + t2;
    var text := w + FormatLine(q, letter);
    assert ScanInt(text) == Some((q + 1, t0)) by {
      assert text == w + [d] + t0;
      ScanIntDigit(w, d, t0);
    }
    assert ScanChar(t0) == Some((',', t2)) by {
      assert t0 == [] + [','] + t2;
      ScanCharNext([], ',', t2);
    }
    assert ScanChar(t2) == None by {
      SkipSpaceAll(t2);
    }
  }

  /** The last saved line with a whitespace letter: its second %c runs into
      the end of the file. */
  lemma LastLineSpaceLetter(r: Rubric, w: seq<Byte>, acc: Rubric)
    requires AllSpace(w)
    requires IsSpace(r[NUM_QUESTIONS - 1])
    ensures LoadFrom(w + SaveFrom(r, NUM_QUESTIONS - 1), NUM_QUESTIONS - 1, acc) == Fatal(RubricFormat(NUM_QUESTIONS))
  {
    var q := NUM_QUESTIONS - 1;
    assert SaveFrom(r, q) == FormatLine(q, r[q]);
    ScanSpaceLetterLine(w, q, r[q]);
  }

  lemma {:induction false} SpaceLetterFrom(r: Rubric, i: nat, w: seq<Byte>, acc: Rubric)
    requires i < NUM_QUESTIONS
    requires AllSpace(w)
    requires forall k :: i <= k < NUM_QUESTIONS - 1 ==> !IsSpace(r[k])
    requires IsSpace(r[NUM_QUESTIONS - 1])
    ensures LoadFrom(w + SaveFrom(r, i), i, acc) == Fatal(RubricFormat(NUM_QUESTIONS))
    decreases NUM_QUESTIONS - i
  {
    if i == NUM_QUESTIONS - 1 {
      LastLineSpaceLetter(r, w, acc);
    } else {
      LoadSavedLine(r, i, w, acc);
      SpaceLetterFrom(r, i + 1, ['\n'], acc[i := r[i]]);
    }
  }

  /** The round trip needs its side condition: a whitespace letter in the
      last slot makes the saved file fail to load on its fifth line. */
  lemma WhitespaceLetterIsLost(r: Rubric, prior: Rubric)
    requires forall k :: 0 <= k < NUM_QUESTIONS - 1 ==> !IsSpace(r[k])
    requires IsSpace(r[NUM_QUESTIONS - 1])
    ensures LoadRubric(SaveRubric(r), prior) == Fatal(RubricFormat(NUM_QUESTIONS))
  {
    assert [] + SaveFrom(r, 0) == SaveFrom(r, 0);
    SpaceLetterFrom(r, 0, [], prior);
  }
}

=== FILE: transitions.dfy ===
/** The critical sections of a TA process that change more than one field, in
    both programs: the rubric correction (written back to the rubric file),
    the guarded advance of the synchronized program, the inline advance of
    the unsynchronized one, the unsynchronized claim, and the start-up of main. */
module Transitions {
  import opened SharedData
  import opened TextFormat

  /** `old + 1` stored back into a C char, as a byte: 127 becomes 128 (the
      bit pattern of signed -128) and 255 (signed -1) becomes 0. */
  function NextLetter(c: Byte): (d: Byte)
    ensures c as int < 255 ==> d as int == c as int + 1
    ensures c as int == 255 ==> d == '\0'
  {
    ((c as int + 1) % 256) as char
  }

  /** A correction: the new state and the full rubric text written to disk. */
  datatype Corrected = Corrected(state: State, persisted: seq<Byte>)

  /** The rubric correction: advance letter q to the next character and
      rewrite the whole rubric file while still holding the rubric lock. */
  function CorrectRubric(s: State, q: QIndex): (k: Corrected)
    ensures k.state.rubric[q] == NextLetter(s.rubric[q])
    ensures s.rubric[q] as int < 127 ==> k.state.rubric[q] as int == s.rubric[q] as int + 1
    ensures forall j :: 0 <= j < NUM_QUESTIONS && j != q ==> k.state.rubric[j] == s.rubric[j]
    ensures k.state == s.(rubric := k.state.rubric)
    ensures k.persisted == SaveRubric(k.state.rubric)
  {
    var rubric: Rubric := s.rubric[q := NextLetter(s.rubric[q])];
    Corrected(s.(rubric := rubric), SaveRubric(rubric))
  }

  /** The file a correction writes loads back to the corrected letters, so
      the next run starts from them, as long as no letter is whitespace. */
  lemma CorrectionReloads(s: State, q: QIndex, prior: Rubric)
    requires forall j :: 0 <= j < NUM_QUESTIONS ==> !IsSpace(CorrectRubric(s, q).state.rubric[j])
    ensures LoadRubric(CorrectRubric(s, q).persisted, prior) == Ok(CorrectRubric(s, q).state.rubric)
  {
    SaveLoadRoundTrip(CorrectRubric(s, q).state.rubric, prior);
  }

  /** try_load_next_exam: under the state lock, advance only when the run is
      not finished and every question of the current exam is Done; then
      either finish (no exam left) or load the next exam and move the cursor. */
  function TryLoadNextExam(s: State, env: Env): (r: Result<State>)
    ensures s.finished ==> r == Ok(s)
    ensures !AllQuestionsDone(s) ==> r == Ok(s)
    ensures (exists j :: 0 <= j < NUM_QUESTIONS && s.questionState[j] == InProgress) ==> r == Ok(s)
    ensures !s.finished && AllQuestionsDone(s) && s.examIndex + 1 >= |env.exams| ==>
      r == Ok(s.(finished := true))
    ensures !s.finished && AllQuestionsDone(s) && s.examIndex + 1 < |env.exams| ==>
      && (r.Fatal? <==> env.exams[s.examIndex + 1] !in env.records)
      && (r.Ok? ==>
            && r.value.examIndex == s.examIndex + 1
            && r.value.currentStudent == env.records[env.exams[s.examIndex + 1]]
            && r.value.questionState == AllNotStarted
            && r.value.rubric == s.rubric
            && (r.value.finished <==> r.value.currentStudent == SENTINEL_STUDENT))
    ensures r.Ok? ==> s.examIndex <= r.value.examIndex <= s.examIndex + 1
    ensures r.Ok? && s.finished ==> r.value.finished
  {
    if s.finished then Ok(s)
    else if !AllQuestionsDone(s) then Ok(s)
    else
      var next := s.examIndex + 1;
      if next >= |env.exams| then Ok(s.(finished := true))
      else
        match LoadExamFile(s, env.records, env.exams[next])
        case Fatal(e) => Fatal(e)
        case Ok(t) => Ok(t.(examIndex := next))
  }

  /** The advance written inline in the unsynchronized worker: it only looks
      at `finished`, never at the questions, so it moves on while questions
      are still being marked. */
  function InlineAdvance(s: State, env: Env): (r: Result<State>)
    ensures s.finished ==> r == Ok(s)
    ensures !s.finished && s.examIndex + 1 >= |env.exams| ==> r == Ok(s.(finished := true))
    ensures !s.finished && s.examIndex + 1 < |env.exams| ==>
      && (r.Fatal? <==> env.exams[s.examIndex + 1] !in env.records)
      && (r.Ok? ==>
            && r.value.examIndex == s.examIndex + 1
            && r.value.currentStudent == env.records[env.exams[s.examIndex + 1]]
            && r.value.questionState == AllNotStarted
            && r.value.rubric == s.rubric
            && (r.value.finished <==> r.value.currentStudent == SENTINEL_STUDENT))
    ensures r.Ok? ==> s.examIndex <= r.value.examIndex <= s.examIndex + 1
    ensures r.Ok? && s.finished ==> r.value.finished
  {
    if s.finished then Ok(s)
    else
      var next := s.examIndex + 1;
      if next >= |env.exams| then Ok(s.(finished := true))
      else
        match LoadExamFile(s, env.records, env.exams[next])
        case Fatal(e) => Fatal(e)
        case Ok(t) => Ok(t.(examIndex := next))
  }

  /** Once every question is Done the two advances agree; the guard is the
      only difference between them. */
  lemma AdvancesAgreeWhenAllDone(s: State, env: Env)
    requires AllQuestionsDone(s)
    ensures TryLoadNextExam(s, env) == InlineAdvance(s, env)
  {
  }

  /** Both advances keep the record invariant: the cursor stays inside the
      exam list, the student is the one of the exam it names, and a sentinel
      student has finished the run. */
  lemma AdvancesKeepInv(s: State, env: Env)
    requires Inv(s, env)
    ensures TryLoadNextExam(s, env).Ok? ==> Inv(TryLoadNextExam(s, env).value, env)
    ensures InlineAdvance(s, env).Ok? ==> Inv(InlineAdvance(s, env).value, env)
  {
  }

  /** select_question of the unsynchronized program: the same scan, returning
      from inside the loop, with no lock around it. As one step it is the
      synchronized claim. */
  method UnsyncSelectQuestion(s: State) returns (q: int, t: State)
    ensures Claim(q, t) == SelectQuestion(s)
  {
    var i := 0;
    while i < NUM_QUESTIONS
      invariant 0 <= i <= NUM_QUESTIONS
      invariant forall j :: 0 <= j < i ==> s.questionState[j] != NotStarted
    {
      if s.questionState[i] == NotStarted {
        q, t := i, s.(questionState := s.questionState[i := InProgress]);
        return;
      }
      i := i + 1;
    }
    q, t := -1, s;
  }

  /** The rubric of a fresh shared memory segment: all zero bytes. */
  const ZeroRubric: Rubric := ['\0', '\0', '\0', '\0', '\0']

  /** What main sets up before the workers start. */
  datatype Setup = Setup(state: State, env: Env)

  /** main up to the fork, in its order: read the exam list (no names is
      fatal), load the rubric file into the zeroed record (its errors are
      fatal), and load the first exam (fatal when its file is unreadable). */
  method Init(listLines: seq<string>, rubricText: seq<Byte>, records: map<string, int>)
    returns (r: Result<Setup>)
    ensures r == Fatal(NoExamsListed) <==> Kept(listLines) == []
    ensures r.Ok? ==>
      && Inv(r.value.state, r.value.env)
      && r.value.env.records == records
      && 1 <= |r.value.env.exams| <= MAX_EXAMS
      && r.value.env.exams == (if |Kept(listLines)| <= MAX_EXAMS then Kept(listLines) else Kept(listLines)[..MAX_EXAMS])
      && r.value.state.examIndex == 0
      && r.value.state.questionState == AllNotStarted
      && (r.value.state.finished <==> r.value.state.currentStudent == SENTINEL_STUDENT)
      && LoadRubric(rubricText, ZeroRubric) == Ok(r.value.state.rubric)
    ensures Kept(listLines) != [] && LoadRubric(rubricText, ZeroRubric).Fatal? ==>
      r == Fatal(LoadRubric(rubricText, ZeroRubric).error)
    ensures Kept(listLines) != [] && LoadRubric(rubricText, ZeroRubric).Ok? ==>
      && (r.Ok? <==> Kept(listLines)[0] in records)
      && (r.Fatal? ==> r == Fatal(ExamUnreadable(Kept(listLines)[0])))
    ensures r.Fatal? && r.error.ExamUnreadable? ==> r.error.name !in records
  {
    var names := ReadExamList(listLines);
    if |names| == 0 {
      return Fatal(NoExamsListed);
    }
    var rubric := LoadRubric(rubricText, ZeroRubric);
    if rubric.Fatal? {
      return Fatal(rubric.error);
    }
    var blank := State(rubric.value, 0, AllNotStarted, 0, false);
    var loaded := LoadExamFile(blank, records, names[0]);
    if loaded.Fatal? {
      return Fatal(loaded.error);
    }
    r := Ok(Setup(loaded.value, Env(names, records)));
  }
}

=== FILE: workers.dfy ===
/** The TA processes as a transition system. Each worker runs the loop
    of ta_process; a scheduler interleaves their atomic steps (one critical
    section, or one step with no shared effect, per event). The `Mode`
    chooses the synchronized program or the unsynchronized one, which differ
    only in the advance at the end of an iteration. */
module Workers {
  import opened SharedData
  import opened TextFormat
  import opened Transitions

  datatype Mode = Synchronized | Unsynchronized

  /** Where one worker is in its loop. `Marking` keeps the question it
      claimed and the exam cursor at claim time (the latter only to state
      which exam the mark lands on). */
  datatype Pc =
    | Check                               // top of the loop: exit test
    | Review(q: QIndex)                   // about to review rubric letter q
    | Claiming                            // inner claim loop
    | Marking(q: QIndex, claimedOn: nat)  // holds a claim on question q
    | Advancing                           // about to try the advance
    | Exited

  /** The whole system: the shared record, the rubric file and each worker. */
  datatype Config = Config(shared: State, store: seq<Byte>, pcs: seq<Pc>)

  /** One scheduling decision: which worker moves, and the coin it flips
      when it reviews a rubric letter (rand() % 2). */
  datatype Event = Event(worker: nat, coin: bool)

  function AfterReview(q: QIndex): Pc {
    if q + 1 < NUM_QUESTIONS then Review(q + 1) else Claiming
  }

  /** One atomic step of the worker the event names. An event for a worker
      that does not exist, or one that has exited, changes nothing. A failed
      exam load aborts the run. */
  function Step(mode: Mode, c: Config, env: Env, ev: Event): (r: Result<Config>)
    ensures r.Ok? ==> |r.value.pcs| == |c.pcs|
    ensures r.Ok? ==> forall w :: 0 <= w < |c.pcs| && w != ev.worker ==> r.value.pcs[w] == c.pcs[w]
  {
    var w := ev.worker;
    if w >= |c.pcs| then Ok(c)
    else
      var s := c.shared;
      match c.pcs[w]
      case Exited => Ok(c)
      case Check =>
        Ok(c.(pcs := c.pcs[w := if ShouldExit(s) then Exited else Review(0)]))
      case Review(q) =>
        if ev.coin then
          var k := CorrectRubric(s, q);
          Ok(Config(k.state, k.persisted, c.pcs[w := AfterReview(q)]))
        else Ok(c.(pcs := c.pcs[w := AfterReview(q)]))
      case Claiming =>
        var cl := SelectQuestion(s);
        if cl.q == -1 then Ok(c.(pcs := c.pcs[w := Advancing]))
        else Ok(c.(shared := cl.state, pcs := c.pcs[w := Marking(cl.q, s.examIndex)]))
      case Marking(q, _) =>
        Ok(c.(shared := MarkDone(s, q), pcs := c.pcs[w := Claiming]))
      case Advancing =>
        var adv := if mode == Synchronized then TryLoadNextExam(s, env) else InlineAdvance(s, env);
        match adv
        case Fatal(e) => Fatal(e)
        case Ok(t) => Ok(c.(shared := t, pcs := c.pcs[w := Check]))
  }

  /** An advance whose next exam file cannot be read ends the whole run with
      that exam's error, in either program. */
  lemma AdvanceLoadFailureIsFatal(mode: Mode, c: Config, env: Env, ev: Event)
    requires ev.worker < |c.pcs| && c.pcs[ev.worker] == Advancing
    requires !c.shared.finished
    requires mode == Synchronized ==> AllQuestionsDone(c.shared)
    requires c.shared.examIndex + 1 < |env.exams|
    requires env.exams[c.shared.examIndex + 1] !in env.records
    ensures Step(mode, c, env, ev) == Fatal(ExamUnreadable(env.exams[c.shared.examIndex + 1]))
  {
  }

  /** A schedule played out from `c`; the first fatal step ends it. */
  function Run(mode: Mode, c: Config, env: Env, events: seq<Event>): Result<Config>
    decreases |events|
  {
    if |events| == 0 then Ok(c)
    else
      match Step(mode, c, env, events[0])
      case Fatal(e) => Fatal(e)
      case Ok(c') => Run(mode, c', env, events[1..])
  }

  /** The configuration main forks into: every worker at the top of its loop. */
  function Start(setup: Setup, rubricText: seq<Byte>, workers: nat): (c: Config)
    ensures |c.pcs| == workers
    ensures forall w :: 0 <= w < workers ==> c.pcs[w] == Check
  {
    Config(setup.state, rubricText, seq(workers, _ => Check))
  }

  // ---------------------------------------------------------------------
  // Invariants of the synchronized program.

  /** Every held claim is on a question still InProgress of the exam it was
      claimed on. */
  predicate ClaimsHeld(c: Config) {
    forall w :: 0 <= w < |c.pcs| && c.pcs[w].Marking? ==>
      && c.shared.questionState[c.pcs[w].q] == InProgress
      && c.pcs[w].claimedOn == c.shared.examIndex
  }

  /** No two workers hold a claim on the same question. */
  predicate ClaimsExclusive(c: Config) {
    forall w1, w2 ::
      (0 <= w1 < |c.pcs| && 0 <= w2 < |c.pcs| && w1 != w2 &&
       c.pcs[w1].Marking? && c.pcs[w2].Marking?) ==> c.pcs[w1].q != c.pcs[w2].q
  }

  /** A worker leaves its loop only once the run is finished. */
  predicate ExitedOnlyWhenFinished(c: Config) {
    forall w :: 0 <= w < |c.pcs| && c.pcs[w] == Exited ==> c.shared.finished
  }

  /** The rubric file holds the rubric: either it is the canonical text of the
      current letters, or it is the original file that loads to them. */
  predicate RubricPersisted(c: Config) {
    c.store == SaveRubric(c.shared.rubric) || LoadRubric(c.store, ZeroRubric) == Ok(c.shared.rubric)
  }

  predicate SyncInv(c: Config, env: Env) {
    && Inv(c.shared, env)
    && ClaimsHeld(c)
    && ClaimsExclusive(c)
    && ExitedOnlyWhenFinished(c)
    && RubricPersisted(c)
  }

  /** The start configuration satisfies the invariant. */
  lemma StartSyncInv(setup: Setup, rubricText: seq<Byte>, workers: nat)
    requires Inv(setup.state, setup.env)
    requires LoadRubric(rubricText, ZeroRubric) == Ok(setup.state.rubric)
    ensures SyncInv(Start(setup, rubricText, workers), setup.env)
  {
  }

  /** A step that leaves the rubric and its file alone keeps them in agreement. */
  lemma RubricUntouched(c: Config, c': Config)
    requires RubricPersisted(c)
    requires c'.store == c.store && c'.shared.rubric == c.shared.rubric
    ensures RubricPersisted(c')
  {
  }

  /** A claim keeps the two claim invariants: the new claim is on a question
      that was NotStarted, so no other worker holds it. */
  lemma ClaimKeepsClaims(c: Config, env: Env, ev: Event)
    requires ClaimsHeld(c) && ClaimsExclusive(c)
    requires ev.worker < |c.pcs| && c.pcs[ev.worker] == Claiming
    ensures Step(Synchronized, c, env, ev).Ok?
    ensures ClaimsHeld(Step(Synchronized, c, env, ev).value)
    ensures ClaimsExclusive(Step(Synchronized, c, env, ev).value)
  {
    var cl := SelectQuestion(c.shared);
    if cl.q != -1 {
      var c' := Step(Synchronized, c, env, ev).value;
      assert c' == c.(shared := cl.state, pcs := c.pcs[ev.worker := Marking(cl.q, c.shared.examIndex)]);
      forall w | 0 <= w < |c'.pcs| && c'.pcs[w].Marking?
        ensures c'.shared.questionState[c'.pcs[w].q] == InProgress
        ensures c'.pcs[w].claimedOn == c'.shared.examIndex
      {
        if w != ev.worker {
          assert c.pcs[w].q != cl.q;
        }
      }
    }
  }

  lemma ClaimKeepsSyncInv(c: Config, env: Env, ev: Event)
    requires SyncInv(c, env)
    requires ev.worker < |c.pcs| && c.pcs[ev.worker] == Claiming
    ensures Step(Synchronized, c, env, ev).Ok?
    ensures SyncInv(Step(Synchronized, c, env, ev).value, env)
  {
    ClaimKeepsClaims(c, env, ev);
  }

  /** A mark releases the worker's claim and touches only its own question. */
  lemma MarkKeepsClaims(c: Config, env: Env, ev: Event)
    requires ClaimsHeld(c) && ClaimsExclusive(c)
    requires ev.worker < |c.pcs| && c.pcs[ev.worker].Marking?
    ensures Step(Synchronized, c, env, ev).Ok?
    ensures ClaimsHeld(Step(Synchronized, c, env, ev).value)
    ensures ClaimsExclusive(Step(Synchronized, c, env, ev).value)
  {
    var c' := Step(Synchronized, c, env, ev).value;
    assert c' == c.(shared := MarkDone(c.shared, c.pcs[ev.worker].q), pcs := c.pcs[ev.worker := Claiming]);
    forall w | 0 <= w < |c'.pcs| && c'.pcs[w].Marking?
      ensures c'.shared.questionState[c'.pcs[w].q] == InProgress
    {
      assert c.pcs[w].Marking? && c.pcs[w].q != c.pcs[ev.worker].q;
    }
  }

  lemma MarkKeepsSyncInv(c: Config, env: Env, ev: Event)
    requires SyncInv(c, env)
    requires ev.worker < |c.pcs| && c.pcs[ev.worker].Marking?
    ensures Step(Synchronized, c, env, ev).Ok?
    ensures SyncInv(Step(Synchronized, c, env, ev).value, env)
  {
    MarkKeepsClaims(c, env, ev);
    RubricUntouched(c, Step(Synchronized, c, env, ev).value);
  }

  lemma AdvanceKeepsSyncInv(c: Config, env: Env, ev: Event)
    requires SyncInv(c, env)
    requires ev.worker < |c.pcs| && c.pcs[ev.worker] == Advancing
    ensures Step(Synchronized, c, env, ev).Ok? ==> SyncInv(Step(Synchronized, c, env, ev).value, env)
  {
    AdvancesKeepInv(c.shared, env);
  }

  lemma ReviewKeepsSyncInv(c: Config, env: Env, ev: Event)
    requires SyncInv(c, env)
    requires ev.worker < |c.pcs| && c.pcs[ev.worker].Review?
    ensures Step(Synchronized, c, env, ev).Ok?
    ensures SyncInv(Step(Synchronized, c, env, ev).value, env)
  {
  }

  /** Every synchronized step keeps the invariant. */
  lemma SyncStepKeepsInv(c: Config, env: Env, ev: Event)
    requires SyncInv(c, env)
    ensures Step(Synchronized, c, env, ev).Ok? ==> SyncInv(Step(Synchronized, c, env, ev).value, env)
  {
    if ev.worker < |c.pcs| {
      match c.pcs[ev.worker]
      case Claiming => ClaimKeepsSyncInv(c, env, ev);
      case Marking(_, _) => MarkKeepsSyncInv(c, env, ev);
      case Advancing => AdvanceKeepsSyncInv(c, env, ev);
      case Review(_) => ReviewKeepsSyncInv(c, env, ev);
      case Check =>
      case Exited =>
    }
  }

  /** Every configuration a synchronized schedule reaches keeps the invariant. */
  lemma {:induction false} SyncRunKeepsInv(c: Config, env: Env, events: seq<Event>)
    requires SyncInv(c, env)
    ensures Run(Synchronized, c, env, events).Ok? ==> SyncInv(Run(Synchronized, c, env, events).value, env)
    decreases |events|
  {
    if |events| > 0 {
      SyncStepKeepsInv(c, env, events[0]);
      var r := Step(Synchronized, c, env, events[0]);
      if r.Ok? {
        SyncRunKeepsInv(r.value, env, events[1..]);
      }
    }
  }

  /** A mark in the synchronized program lands on the exam its question was
      claimed on, and turns that question from InProgress to Done. */
  lemma SyncMarkHitsClaimedExam(c: Config, env: Env, ev: Event)
    requires SyncInv(c, env)
    requires ev.worker < |c.pcs| && c.pcs[ev.worker].Marking?
    ensures Step(Synchronized, c, env, ev).Ok?
    ensures var c' := Step(Synchronized, c, env, ev).value;
      var q := c.pcs[ev.worker].q;
      && c.shared.questionState[q] == InProgress
      && c'.shared.questionState[q] == Done
      && c'.shared.examIndex == c.pcs[ev.worker].claimedOn
  {
  }

  /** In the synchronized program the cursor moves only off an exam whose
      questions are all Done. */
  lemma SyncAdvanceNeedsAllDone(c: Config, env: Env, ev: Event)
    requires Step(Synchronized, c, env, ev).Ok?
    requires Step(Synchronized, c, env, ev).value.shared.examIndex != c.shared.examIndex
    ensures AllQuestionsDone(c.shared)
  {
  }

  // ---------------------------------------------------------------------
  // What holds in both programs.

  /** The exit test at the top of the loop: a worker leaves exactly when
      `finished` is set or the current student is the sentinel, and
      otherwise starts reviewing the rubric. */
  lemma WorkerExitTest(mode: Mode, c: Config, env: Env, w: nat)
    requires w < |c.pcs| && c.pcs[w] == Check
    ensures Step(mode, c, env, Event(w, false)).Ok?
    ensures Step(mode, c, env, Event(w, true)) == Step(mode, c, env, Event(w, false))
    ensures var c' := Step(mode, c, env, Event(w, false)).value;
      && c'.shared == c.shared
      && (c'.pcs[w] == Exited <==> c.shared.finished || c.shared.currentStudent == SENTINEL_STUDENT)
      && (c'.pcs[w] != Exited ==> c'.pcs[w] == Review(0))
  {
  }

  lemma {:induction false} RunAppend(mode: Mode, c: Config, env: Env, a: seq<Event>, b: seq<Event>)
    requires Run(mode, c, env, a).Ok?
    ensures Run(mode, c, env, a + b) == Run(mode, Run(mode, c, env, a).value, env, b)
    decreases |a|
  {
    if |a| == 0 {
      assert a + b == b;
    } else {
      assert (a + b)[0] == a[0];
      assert (a + b)[1..] == a[1..] + b;
      RunAppend(mode, Step(mode, c, env, a[0]).value, env, a[1..], b);
    }
  }

  /** One step, in either mode, keeps the record invariant, moves the cursor
      by at most one and never clears `finished`; `finished` is set only by
      loading the sentinel student or by running out of exams. */
  lemma StepMonotone(mode: Mode, c: Config, env: Env, ev: Event)
    requires Inv(c.shared, env)
    requires Step(mode, c, env, ev).Ok?
    ensures var c' := Step(mode, c, env, ev).value;
      && Inv(c'.shared, env)
      && c.shared.examIndex <= c'.shared.examIndex <= c.shared.examIndex + 1
      && (c.shared.finished ==> c'.shared.finished)
      && (!c.shared.finished && c'.shared.finished ==>
            c'.shared.currentStudent == SENTINEL_STUDENT || c'.shared.examIndex + 1 >= |env.exams|)
  {
    AdvancesKeepInv(c.shared, env);
  }

  /** Over any schedule, in either mode, the cursor never decreases and
      `finished` never goes back to false. */
  lemma {:induction false} RunMonotone(mode: Mode, c: Config, env: Env, events: seq<Event>)
    requires Inv(c.shared, env)
    requires Run(mode, c, env, events).Ok?
    ensures var c' := Run(mode, c, env, events).value;
      && Inv(c'.shared, env)
      && c.shared.examIndex <= c'.shared.examIndex <= c.shared.examIndex + |events|
      && (c.shared.finished ==> c'.shared.finished)
    decreases |events|
  {
    if |events| > 0 {
      var r := Step(mode, c, env, events[0]);
      StepMonotone(mode, c, env, events[0]);
      RunMonotone(mode, r.value, env, events[1..]);
    }
  }

  /** A worker that has exited stays exited. */
  lemma {:induction false} ExitedStaysExited(mode: Mode, c: Config, env: Env, events: seq<Event>, w: nat)
    requires w < |c.pcs| && c.pcs[w] == Exited
    requires Run(mode, c, env, events).Ok?
    ensures w < |Run(mode, c, env, events).value.pcs|
    ensures Run(mode, c, env, events).value.pcs[w] == Exited
    decreases |events|
  {
    if |events| > 0 {
      var r := Step(mode, c, env, events[0]);
      ExitedStaysExited(mode, r.value, env, events[1..], w);
    }
  }

  // ---------------------------------------------------------------------
  // Where the unsynchronized program differs.

  const ThreeExams: Env := Env(["e1", "e2", "e3"], map["e1" := 1001, "e2" := 1002, "e3" := 1003])

  /** Worker 0 is marking question 0 of the first exam; worker 1 has found
      nothing left to claim and is about to advance. The rubric letters `r`
      and the rubric file `store` are arbitrary. */
  function Racing(r: Rubric, store: seq<Byte>): Config {
    Config(State(r, 1001, [InProgress, Done, Done, Done, Done], 0, false), store, [Marking(0, 0), Advancing])
  }

  lemma RacingSyncInv(r: Rubric, store: seq<Byte>)
    requires LoadRubric(store, ZeroRubric) == Ok(r)
    ensures SyncInv(Racing(r, store), ThreeExams)
  {
  }

  /** The synchronized advance waits for the claimed question. */
  lemma SyncAdvanceWaitsForClaim(r: Rubric, store: seq<Byte>)
    ensures Step(Synchronized, Racing(r, store), ThreeExams, Event(1, false)) ==
      Ok(Racing(r, store).(pcs := [Marking(0, 0), Check]))
  {
    assert !AllQuestionsDone(Racing(r, store).shared);
    assert Racing(r, store).pcs[1 := Check] == [Marking(0, 0), Check];
  }

  /** The inline advance moves on, so worker 0's claim now points at a
      question of the next exam that is NotStarted, and its mark will land
      on an exam nobody graded. */
  lemma UnsyncAdvanceStrandsClaim(r: Rubric, store: seq<Byte>)
    ensures Step(Unsynchronized, Racing(r, store), ThreeExams, Event(1, false)).Ok?
    ensures var c' := Step(Unsynchronized, Racing(r, store), ThreeExams, Event(1, false)).value;
      && c'.shared.examIndex == 1
      && c'.shared.questionState[0] == NotStarted
      && c'.pcs[0] == Marking(0, 0)
      && !ClaimsHeld(c')
  {
    var t := InlineAdvance(Racing(r, store).shared, ThreeExams);
    assert t.Ok? && t.value.examIndex == 1;
  }

  /** Two workers both past their claim loop on a fully marked exam. */
  function BothAdvancing(r: Rubric, store: seq<Byte>): Config {
    Config(State(r, 1001, [Done, Done, Done, Done, Done], 0, false), store, [Advancing, Advancing])
  }

  /** After the first of them has advanced onto exam 2. */
  function OneAdvanced(r: Rubric, store: seq<Byte>): Config {
    Config(State(r, 1002, AllNotStarted, 1, false), store, [Check, Advancing])
  }

  lemma BothAdvancingSyncInv(r: Rubric, store: seq<Byte>)
    requires LoadRubric(store, ZeroRubric) == Ok(r)
    ensures SyncInv(BothAdvancing(r, store), ThreeExams)
  {
  }

  /** The first advance is the same in both programs. */
  lemma FirstAdvance(mode: Mode, r: Rubric, store: seq<Byte>)
    ensures Step(mode, BothAdvancing(r, store), ThreeExams, Event(0, false)) == Ok(OneAdvanced(r, store))
  {
    assert AllQuestionsDone(BothAdvancing(r, store).shared);
    assert ThreeExams.exams[1] == "e2";
    assert BothAdvancing(r, store).pcs[0 := Check] == [Check, Advancing];
  }

  /** Unsynchronized, the second worker advances again: exam 2 is skipped
      with none of its questions marked. */
  lemma UnsyncDoubleAdvanceSkipsExam(r: Rubric, store: seq<Byte>)
    ensures Run(Unsynchronized, BothAdvancing(r, store), ThreeExams, [Event(0, false), Event(1, false)]).Ok?
    ensures var c' := Run(Unsynchronized, BothAdvancing(r, store), ThreeExams, [Event(0, false), Event(1, false)]).value;
      c'.shared.examIndex == 2 && c'.shared.currentStudent == 1003
  {
    FirstAdvance(Unsynchronized, r, store);
    var c2 := Config(State(r, 1003, AllNotStarted, 2, false), store, [Check, Check]);
    assert Step(Unsynchronized, OneAdvanced(r, store), ThreeExams, Event(1, false)) == Ok(c2) by {
      assert ThreeExams.exams[2] == "e3";
      assert OneAdvanced(r, store).pcs[1 := Check] == [Check, Check];
    }
    RunTrace(Unsynchronized, [BothAdvancing(r, store), OneAdvanced(r, store), c2], ThreeExams, [Event(0, false), Event(1, false)]);
  }

  /** Synchronized, the second advance finds exam 2 unmarked and does nothing. */
  lemma SyncSecondAdvanceWaits(r: Rubric, store: seq<Byte>)
    ensures Run(Synchronized, BothAdvancing(r, store), ThreeExams, [Event(0, false), Event(1, false)]) ==
      Ok(OneAdvanced(r, store).(pcs := [Check, Check]))
  {
    FirstAdvance(Synchronized, r, store);
    var c2 := OneAdvanced(r, store).(pcs := [Check, Check]);
    assert Step(Synchronized, OneAdvanced(r, store), ThreeExams, Event(1, false)) == Ok(c2) by {
      assert !AllQuestionsDone(OneAdvanced(r, store).shared);
      assert OneAdvanced(r, store).pcs[1 := Check] == [Check, Check];
    }
    RunTrace(Synchronized, [BothAdvancing(r, store), OneAdvanced(r, store), c2], ThreeExams, [Event(0, false), Event(1, false)]);
  }

  // ---------------------------------------------------------------------
  // The two-exam run: exam E1 belongs to student 1001, exam E2 to the
  // sentinel student; two workers, any rubric.

  /** A schedule whose every step is known gives the run's result. */
  lemma {:induction false} RunTrace(mode: Mode, cs: seq<Config>, env: Env, events: seq<Event>)
    requires |cs| == |events| + 1
    requires forall k :: 0 <= k < |events| ==> Step(mode, cs[k], env, events[k]) == Ok(cs[k + 1])
    ensures Run(mode, cs[0], env, events) == Ok(cs[|events|])
    decreases |events|
  {
    if |events| > 0 {
      RunTrace(mode, cs[1..], env, events[1..]);
    }
  }

  /** Running the suffix of a schedule from event k: one step, then the rest. */
  lemma RunFrom(mode: Mode, c: Config, env: Env, events: seq<Event>, k: nat)
    requires k < |events|
    ensures Run(mode, c, env, events[k..]) ==
      match Step(mode, c, env, events[k])
      case Fatal(e) => Fatal(e)
      case Ok(c') => Run(mode, c', env, events[k + 1..])
  {
    assert events[k..][0] == events[k];
    assert events[k..][1..] == events[k + 1..];
  }

  const ScenarioEnv: Env := Env(["E1", "E2"], map["E1" := 1001, "E2" := 9999])

  /** The rubric after worker 0 corrects letter 1. */
  function Corrected1(r: Rubric): Rubric {
    r[1 := NextLetter(r[1])]
  }

  /** A configuration of the scenario while exam E1 (student 1001) is graded. */
  function OnFirstExam(r: Rubric, store: seq<Byte>, qs: Progress, pcs: seq<Pc>): Config {
    Config(State(r, 1001, qs, 0, false), store, pcs)
  }

  /** A configuration of the scenario once the sentinel exam E2 is loaded. */
  function OnSentinelExam(r: Rubric, store: seq<Byte>, pcs: seq<Pc>): Config {
    Config(State(r, SENTINEL_STUDENT, AllNotStarted, 1, true), store, pcs)
  }

  /** Worker 0 checks, reviews the rubric (correcting letter 1), claims and
      marks all five questions, advances onto the sentinel exam and exits;
      worker 1 then sees the sentinel and exits too. */
  const ScenarioEvents: seq<Event> := [
    Event(0, false),
    Event(0, false),
    Event(0, true),
    Event(0, false),
    Event(0, false),
    Event(0, false),
    Event(0, false),
    Event(0, false),
    Event(0, false),
    Event(0, false),
    Event(0, false),
    Event(0, false),
    Event(0, false),
    Event(0, false),
    Event(0, false),
    Event(0, false),
    Event(0, false),
    Event(0, false),
    Event(0, false),
    Event(1, false)]

  /** Worker 0 passes the exit test. */
  lemma ScenarioStep0(r: Rubric, store: seq<Byte>)
    ensures Run(Synchronized, OnFirstExam(r, store, [NotStarted, NotStarted, NotStarted, NotStarted, NotStarted], [Check, Check]), ScenarioEnv, ScenarioEvents[0..]) ==
      Run(Synchronized, OnFirstExam(r, store, [NotStarted, NotStarted, NotStarted, NotStarted, NotStarted], [Review(0), Check]), ScenarioEnv, ScenarioEvents[1..])
  {
    var c := OnFirstExam(r, store, [NotStarted, NotStarted, NotStarted, NotStarted, NotStarted], [Check, Check]);
    assert Step(Synchronized, c, ScenarioEnv, Event(0, false)) == Ok(OnFirstExam(r, store, [NotStarted, NotStarted, NotStarted, NotStarted, NotStarted], [Review(0), Check])) by {
      assert !ShouldExit(c.shared);
      assert c.pcs[0 := Review(0)] == [Review(0), Check];
    }
    assert ScenarioEvents[0] == Event(0, false);
    RunFrom(Synchronized, c, ScenarioEnv, ScenarioEvents, 0);
  }

  /** Worker 0 keeps letter 0. */
  lemma ScenarioStep1(r: Rubric, store: seq<Byte>)
    ensures Run(Synchronized, OnFirstExam(r, store, [NotStarted, NotStarted, NotStarted, NotStarted, NotStarted], [Review(0), Check]), ScenarioEnv, ScenarioEvents[1..]) ==
      Run(Synchronized, OnFirstExam(r, store, [NotStarted, NotStarted, NotStarted, NotStarted, NotStarted], [Review(1), Check]), ScenarioEnv, ScenarioEvents[2..])
  {
    var c := OnFirstExam(r, store, [NotStarted, NotStarted, NotStarted, NotStarted, NotStarted], [Review(0), Check]);
    assert Step(Synchronized, c, ScenarioEnv, Event(0, false)) == Ok(OnFirstExam(r, store, [NotStarted, NotStarted, NotStarted, NotStarted, NotStarted], [Review(1), Check])) by {
      assert c.pcs[0 := Review(1)] == [Review(1), Check];
    }
    assert ScenarioEvents[1] == Event(0, false);
    RunFrom(Synchronized, c, ScenarioEnv, ScenarioEvents, 1);
  }

  /** Worker 0 corrects letter 1 and rewrites the rubric file. */
  lemma ScenarioStep2(r: Rubric, store: seq<Byte>)
    ensures Run(Synchronized, OnFirstExam(r, store, [NotStarted, NotStarted, NotStarted, NotStarted, NotStarted], [Review(1), Check]), ScenarioEnv, ScenarioEvents[2..]) ==
      Run(Synchronized, OnFirstExam(Corrected1(r), SaveRubric(Corrected1(r)), [NotStarted, NotStarted, NotStarted, NotStarted, NotStarted], [Review(2), Check]), ScenarioEnv, ScenarioEvents[3..])
  {
    var c := OnFirstExam(r, store, [NotStarted, NotStarted, NotStarted, NotStarted, NotStarted], [Review(1), Check]);
    assert Step(Synchronized, c, ScenarioEnv, Event(0, true)) == Ok(OnFirstExam(Corrected1(r), SaveRubric(Corrected1(r)), [NotStarted, NotStarted, NotStarted, NotStarted, NotStarted], [Review(2), Check])) by {
      assert c.pcs[0 := Review(2)] == [Review(2), Check];
    }
    assert ScenarioEvents[2] == Event(0, true);
    RunFrom(Synchronized, c, ScenarioEnv, ScenarioEvents, 2);
  }

  /** Worker 0 keeps letter 2. */
  lemma ScenarioStep3(r: Rubric, store: seq<Byte>)
    ensures Run(Synchronized, OnFirstExam(r, store, [NotStarted, NotStarted, NotStarted, NotStarted, NotStarted], [Review(2), Check]), ScenarioEnv, ScenarioEvents[3..]) ==
      Run(Synchronized, OnFirstExam(r, store, [NotStarted, NotStarted, NotStarted, NotStarted, NotStarted], [Review(3), Check]), ScenarioEnv, ScenarioEvents[4..])
  {
    var c := OnFirstExam(r, store, [NotStarted, NotStarted, NotStarted, NotStarted, NotStarted], [Review(2), Check]);
    assert Step(Synchronized, c, ScenarioEnv, Event(0, false)) == Ok(OnFirstExam(r, store, [NotStarted, NotStarted, NotStarted, NotStarted, NotStarted], [Review(3), Check])) by {
      assert c.pcs[0 := Review(3)] == [Review(3), Check];
    }
    assert ScenarioEvents[3] == Event(0, false);
    RunFrom(Synchronized, c, ScenarioEnv, ScenarioEvents, 3);
  }

  /** Worker 0 keeps letter 3. */
  lemma ScenarioStep4(r: Rubric, store: seq<Byte>)
    ensures Run(Synchronized, OnFirstExam(r, store, [NotStarted, NotStarted, NotStarted, NotStarted, NotStarted], [Review(3), Check]), ScenarioEnv, ScenarioEvents[4..]) ==
      Run(Synchronized, OnFirstExam(r, store, [NotStarted, NotStarted, NotStarted, NotStarted, NotStarted], [Review(4), Check]), ScenarioEnv, ScenarioEvents[5..])
  {
    var c := OnFirstExam(r, store, [NotStarted, NotStarted, NotStarted, NotStarted, NotStarted], [Review(3), Check]);
    assert Step(Synchronized, c, ScenarioEnv, Event(0, false)) == Ok(OnFirstExam(r, store, [NotStarted, NotStarted, NotStarted, NotStarted, NotStarted], [Review(4), Check])) by {
      assert c.pcs[0 := Review(4)] == [Review(4), Check];
    }
    assert ScenarioEvents[4] == Event(0, false);
    RunFrom(Synchronized, c, ScenarioEnv, ScenarioEvents, 4);
  }

  /** Worker 0 keeps letter 4 and starts claiming. */
  lemma ScenarioStep5(r: Rubric, store: seq<Byte>)
    ensures Run(Synchronized, OnFirstExam(r, store, [NotStarted, NotStarted, NotStarted, NotStarted, NotStarted], [Review(4), Check]), ScenarioEnv, ScenarioEvents[5..]) ==
      Run(Synchronized, OnFirstExam(r, store, [NotStarted, NotStarted, NotStarted, NotStarted, NotStarted], [Claiming, Check]), ScenarioEnv, ScenarioEvents[6..])
  {
    var c := OnFirstExam(r, store, [NotStarted, NotStarted, NotStarted, NotStarted, NotStarted], [Review(4), Check]);
    assert Step(Synchronized, c, ScenarioEnv, Event(0, false)) == Ok(OnFirstExam(r, store, [NotStarted, NotStarted, NotStarted, NotStarted, NotStarted], [Claiming, Check])) by {
      assert c.pcs[0 := Claiming] == [Claiming, Check];
    }
    assert ScenarioEvents[5] == Event(0, false);
    RunFrom(Synchronized, c, ScenarioEnv, ScenarioEvents, 5);
  }

  /** Worker 0 claims question 0. */
  lemma ScenarioStep6(r: Rubric, store: seq<Byte>)
    ensures Run(Synchronized, OnFirstExam(r, store, [NotStarted, NotStarted, NotStarted, NotStarted, NotStarted], [Claiming, Check]), ScenarioEnv, ScenarioEvents[6..]) ==
      Run(Synchronized, OnFirstExam(r, store, [InProgress, NotStarted, NotStarted, NotStarted, NotStarted], [Marking(0, 0), Check]), ScenarioEnv, ScenarioEvents[7..])
  {
    var c := OnFirstExam(r, store, [NotStarted, NotStarted, NotStarted, NotStarted, NotStarted], [Claiming, Check]);
    assert Step(Synchronized, c, ScenarioEnv, Event(0, false)) == Ok(OnFirstExam(r, store, [InProgress, NotStarted, NotStarted, NotStarted, NotStarted], [Marking(0, 0), Check])) by {
      assert SelectQuestion(c.shared).q == 0 by {
        assert FirstNotStarted(c.shared.questionState, 0) == 0;
      }
      assert c.shared.questionState[0 := InProgress] == [InProgress, NotStarted, NotStarted, NotStarted, NotStarted];
      assert c.pcs[0 := Marking(0, 0)] == [Marking(0, 0), Check];
    }
    assert ScenarioEvents[6] == Event(0, false);
    RunFrom(Synchronized, c, ScenarioEnv, ScenarioEvents, 6);
  }

  /** Worker 0 marks question 0. */
  lemma ScenarioStep7(r: Rubric, store: seq<Byte>)
    ensures Run(Synchronized, OnFirstExam(r, store, [InProgress, NotStarted, NotStarted, NotStarted, NotStarted], [Marking(0, 0), Check]), ScenarioEnv, ScenarioEvents[7..]) ==
      Run(Synchronized, OnFirstExam(r, store, [Done, NotStarted, NotStarted, NotStarted, NotStarted], [Claiming, Check]), ScenarioEnv, ScenarioEvents[8..])
  {
    var c := OnFirstExam(r, store, [InProgress, NotStarted, NotStarted, NotStarted, NotStarted], [Marking(0, 0), Check]);
    assert Step(Synchronized, c, ScenarioEnv, Event(0, false)) == Ok(OnFirstExam(r, store, [Done, NotStarted, NotStarted, NotStarted, NotStarted], [Claiming, Check])) by {
      assert c.shared.questionState[0 := Done] == [Done, NotStarted, NotStarted, NotStarted, NotStarted];
      assert c.pcs[0 := Claiming] == [Claiming, Check];
    }
    assert ScenarioEvents[7] == Event(0, false);
    RunFrom(Synchronized, c, ScenarioEnv, ScenarioEvents, 7);
  }

  /** Worker 0 claims question 1. */
  lemma ScenarioStep8(r: Rubric, store: seq<Byte>)
    ensures Run(Synchronized, OnFirstExam(r, store, [Done, NotStarted, NotStarted, NotStarted, NotStarted], [Claiming, Check]), ScenarioEnv, ScenarioEvents[8..]) ==
      Run(Synchronized, OnFirstExam(r, store, [Done, InProgress, NotStarted, NotStarted, NotStarted], [Marking(1, 0), Check]), ScenarioEnv, ScenarioEvents[9..])
  {
    var c := OnFirstExam(r, store, [Done, NotStarted, NotStarted, NotStarted, NotStarted], [Claiming, Check]);
    assert Step(Synchronized, c, ScenarioEnv, Event(0, false)) == Ok(OnFirstExam(r, store, [Done, InProgress, NotStarted, NotStarted, NotStarted], [Marking(1, 0), Check])) by {
      assert SelectQuestion(c.shared).q == 1 by {
        assert FirstNotStarted(c.shared.questionState, 0) == 1;
      }
      assert c.shared.questionState[1 := InProgress] == [Done, InProgress, NotStarted, NotStarted, NotStarted];
      assert c.pcs[0 := Marking(1, 0)] == [Marking(1, 0), Check];
    }
    assert ScenarioEvents[8] == Event(0, false);
    RunFrom(Synchronized, c, ScenarioEnv, ScenarioEvents, 8);
  }

  /** Worker 0 marks question 1. */
  lemma ScenarioStep9(r: Rubric, store: seq<Byte>)
    ensures Run(Synchronized, OnFirstExam(r, store, [Done, InProgress, NotStarted, NotStarted, NotStarted], [Marking(1, 0), Check]), ScenarioEnv, ScenarioEvents[9..]) ==
      Run(Synchronized, OnFirstExam(r, store, [Done, Done, NotStarted, NotStarted, NotStarted], [Claiming, Check]), ScenarioEnv, ScenarioEvents[10..])
  {
    var c := OnFirstExam(r, store, [Done, InProgress, NotStarted, NotStarted, NotStarted], [Marking(1, 0), Check]);
    assert Step(Synchronized, c, ScenarioEnv, Event(0, false)) == Ok(OnFirstExam(r, store, [Done, Done, NotStarted, NotStarted, NotStarted], [Claiming, Check])) by {
      assert c.shared.questionState[1 := Done] == [Done, Done, NotStarted, NotStarted, NotStarted];
      assert c.pcs[0 := Claiming] == [Claiming, Check];
    }
    assert ScenarioEvents[9] == Event(0, false);
    RunFrom(Synchronized, c, ScenarioEnv, ScenarioEvents, 9);
  }

  /** Worker 0 claims question 2. */
  lemma ScenarioStep10(r: Rubric, store: seq<Byte>)
    ensures Run(Synchronized, OnFirstExam(r, store, [Done, Done, NotStarted, NotStarted, NotStarted], [Claiming, Check]), ScenarioEnv, ScenarioEvents[10..]) ==
      Run(Synchronized, OnFirstExam(r, store, [Done, Done, InProgress, NotStarted, NotStarted], [Marking(2, 0), Check]), ScenarioEnv, ScenarioEvents[11..])
  {
    var c := OnFirstExam(r, store, [Done, Done, NotStarted, NotStarted, NotStarted], [Claiming, Check]);
    assert Step(Synchronized, c, ScenarioEnv, Event(0, false)) == Ok(OnFirstExam(r, store, [Done, Done, InProgress, NotStarted, NotStarted], [Marking(2, 0), Check])) by {
      assert SelectQuestion(c.shared).q == 2 by {
        assert FirstNotStarted(c.shared.questionState, 0) == 2;
      }
      assert c.shared.questionState[2 := InProgress] == [Done, Done, InProgress, NotStarted, NotStarted];
      assert c.pcs[0 := Marking(2, 0)] == [Marking(2, 0), Check];
    }
    assert ScenarioEvents[10] == Event(0, false);
    RunFrom(Synchronized, c, ScenarioEnv, ScenarioEvents, 10);
  }

  /** Worker 0 marks question 2. */
  lemma ScenarioStep11(r: Rubric, store: seq<Byte>)
    ensures Run(Synchronized, OnFirstExam(r, store, [Done, Done, InProgress, NotStarted, NotStarted], [Marking(2, 0), Check]), ScenarioEnv, ScenarioEvents[11..]) ==
      Run(Synchronized, OnFirstExam(r, store, [Done, Done, Done, NotStarted, NotStarted], [Claiming, Check]), ScenarioEnv, ScenarioEvents[12..])
  {
    var c := OnFirstExam(r, store, [Done, Done, InProgress, NotStarted, NotStarted], [Marking(2, 0), Check]);
    assert Step(Synchronized, c, ScenarioEnv, Event(0, false)) == Ok(OnFirstExam(r, store, [Done, Done, Done, NotStarted, NotStarted], [Claiming, Check])) by {
      assert c.shared.questionState[2 := Done] == [Done, Done, Done, NotStarted, NotStarted];
      assert c.pcs[0 := Claiming] == [Claiming, Check];
    }
    assert ScenarioEvents[11] == Event(0, false);
    RunFrom(Synchronized, c, ScenarioEnv, ScenarioEvents, 11);
  }

  /** Worker 0 claims question 3. */
  lemma ScenarioStep12(r: Rubric, store: seq<Byte>)
    ensures Run(Synchronized, OnFirstExam(r, store, [Done, Done, Done, NotStarted, NotStarted], [Claiming, Check]), ScenarioEnv, ScenarioEvents[12..]) ==
      Run(Synchronized, OnFirstExam(r, store, [Done, Done, Done, InProgress, NotStarted], [Marking(3, 0), Check]), ScenarioEnv, ScenarioEvents[13..])
  {
    var c := OnFirstExam(r, store, [Done, Done, Done, NotStarted, NotStarted], [Claiming, Check]);
    assert Step(Synchronized, c, ScenarioEnv, Event(0, false)) == Ok(OnFirstExam(r, store, [Done, Done, Done, InProgress, NotStarted], [Marking(3, 0), Check])) by {
      assert SelectQuestion(c.shared).q == 3 by {
        assert FirstNotStarted(c.shared.questionState, 0) == 3;
      }
      assert c.shared.questionState[3 := InProgress] == [Done, Done, Done, InProgress, NotStarted];
      assert c.pcs[0 := Marking(3, 0)] == [Marking(3, 0), Check];
    }
    assert ScenarioEvents[12] == Event(0, false);
    RunFrom(Synchronized, c, ScenarioEnv, ScenarioEvents, 12);
  }

  /** Worker 0 marks question 3. */
  lemma ScenarioStep13(r: Rubric, store: seq<Byte>)
    ensures Run(Synchronized, OnFirstExam(r, store, [Done, Done, Done, InProgress, NotStarted], [Marking(3, 0), Check]), ScenarioEnv, ScenarioEvents[13..]) ==
      Run(Synchronized, OnFirstExam(r, store, [Done, Done, Done, Done, NotStarted], [Claiming, Check]), ScenarioEnv, ScenarioEvents[14..])
  {
    var c := OnFirstExam(r, store, [Done, Done, Done, InProgress, NotStarted], [Marking(3, 0), Check]);
    assert Step(Synchronized, c, ScenarioEnv, Event(0, false)) == Ok(OnFirstExam(r, store, [Done, Done, Done, Done, NotStarted], [Claiming, Check])) by {
      assert c.shared.questionState[3 := Done] == [Done, Done, Done, Done, NotStarted];
      assert c.pcs[0 := Claiming] == [Claiming, Check];
    }
    assert ScenarioEvents[13] == Event(0, false);
    RunFrom(Synchronized, c, ScenarioEnv, ScenarioEvents, 13);
  }

  /** Worker 0 claims question 4. */
  lemma ScenarioStep14(r: Rubric, store: seq<Byte>)
    ensures Run(Synchronized, OnFirstExam(r, store, [Done, Done, Done, Done, NotStarted], [Claiming, Check]), ScenarioEnv, ScenarioEvents[14..]) ==
      Run(Synchronized, OnFirstExam(r, store, [Done, Done, Done, Done, InProgress], [Marking(4, 0), Check]), ScenarioEnv, ScenarioEvents[15..])
  {
    var c := OnFirstExam(r, store, [Done, Done, Done, Done, NotStarted], [Claiming, Check]);
    assert Step(Synchronized, c, ScenarioEnv, Event(0, false)) == Ok(OnFirstExam(r, store, [Done, Done, Done, Done, InProgress], [Marking(4, 0), Check])) by {
      assert SelectQuestion(c.shared).q == 4 by {
        assert FirstNotStarted(c.shared.questionState, 0) == 4;
      }
      assert c.shared.questionState[4 := InProgress] == [Done, Done, Done, Done, InProgress];
      assert c.pcs[0 := Marking(4, 0)] == [Marking(4, 0), Check];
    }
    assert ScenarioEvents[14] == Event(0, false);
    RunFrom(Synchronized, c, ScenarioEnv, ScenarioEvents, 14);
  }

  /** Worker 0 marks question 4. */
  lemma ScenarioStep15(r: Rubric, store: seq<Byte>)
    ensures Run(Synchronized, OnFirstExam(r, store, [Done, Done, Done, Done, InProgress], [Marking(4, 0), Check]), ScenarioEnv, ScenarioEvents[15..]) ==
      Run(Synchronized, OnFirstExam(r, store, [Done, Done, Done, Done, Done], [Claiming, Check]), ScenarioEnv, ScenarioEvents[16..])
  {
    var c := OnFirstExam(r, store, [Done, Done, Done, Done, InProgress], [Marking(4, 0), Check]);
    assert Step(Synchronized, c, ScenarioEnv, Event(0, false)) == Ok(OnFirstExam(r, store, [Done, Done, Done, Done, Done], [Claiming, Check])) by {
      assert c.shared.questionState[4 := Done] == [Done, Done, Done, Done, Done];
      assert c.pcs[0 := Claiming] == [Claiming, Check];
    }
    assert ScenarioEvents[15] == Event(0, false);
    RunFrom(Synchronized, c, ScenarioEnv, ScenarioEvents, 15);
  }

  /** Worker 0 finds nothing left to claim. */
  lemma ScenarioStep16(r: Rubric, store: seq<Byte>)
    ensures Run(Synchronized, OnFirstExam(r, store, [Done, Done, Done, Done, Done], [Claiming, Check]), ScenarioEnv, ScenarioEvents[16..]) ==
      Run(Synchronized, OnFirstExam(r, store, [Done, Done, Done, Done, Done], [Advancing, Check]), ScenarioEnv, ScenarioEvents[17..])
  {
    var c := OnFirstExam(r, store, [Done, Done, Done, Done, Done], [Claiming, Check]);
    assert Step(Synchronized, c, ScenarioEnv, Event(0, false)) == Ok(OnFirstExam(r, store, [Done, Done, Done, Done, Done], [Advancing, Check])) by {
      assert SelectQuestion(c.shared).q == -1;
      assert c.pcs[0 := Advancing] == [Advancing, Check];
    }
    assert ScenarioEvents[16] == Event(0, false);
    RunFrom(Synchronized, c, ScenarioEnv, ScenarioEvents, 16);
  }

  /** Worker 0 advances onto the sentinel exam. */
  lemma ScenarioStep17(r: Rubric, store: seq<Byte>)
    ensures Run(Synchronized, OnFirstExam(r, store, [Done, Done, Done, Done, Done], [Advancing, Check]), ScenarioEnv, ScenarioEvents[17..]) ==
      Run(Synchronized, OnSentinelExam(r, store, [Check, Check]), ScenarioEnv, ScenarioEvents[18..])
  {
    var c := OnFirstExam(r, store, [Done, Done, Done, Done, Done], [Advancing, Check]);
    assert Step(Synchronized, c, ScenarioEnv, Event(0, false)) == Ok(OnSentinelExam(r, store, [Check, Check])) by {
      assert AllQuestionsDone(c.shared);
      assert ScenarioEnv.exams[1] == "E2";
      assert c.pcs[0 := Check] == [Check, Check];
    }
    assert ScenarioEvents[17] == Event(0, false);
    RunFrom(Synchronized, c, ScenarioEnv, ScenarioEvents, 17);
  }

  /** Worker 0 sees `finished` and exits. */
  lemma ScenarioStep18(r: Rubric, store: seq<Byte>)
    ensures Run(Synchronized, OnSentinelExam(r, store, [Check, Check]), ScenarioEnv, ScenarioEvents[18..]) ==
      Run(Synchronized, OnSentinelExam(r, store, [Exited, Check]), ScenarioEnv, ScenarioEvents[19..])
  {
    var c := OnSentinelExam(r, store, [Check, Check]);
    assert Step(Synchronized, c, ScenarioEnv, Event(0, false)) == Ok(OnSentinelExam(r, store, [Exited, Check])) by {
      assert c.pcs[0 := Exited] == [Exited, Check];
    }
    assert ScenarioEvents[18] == Event(0, false);
    RunFrom(Synchronized, c, ScenarioEnv, ScenarioEvents, 18);
  }

  /** Worker 1 sees `finished` and exits. */
  lemma ScenarioStep19(r: Rubric, store: seq<Byte>)
    ensures Run(Synchronized, OnSentinelExam(r, store, [Exited, Check]), ScenarioEnv, ScenarioEvents[19..]) ==
      Run(Synchronized, OnSentinelExam(r, store, [Exited, Exited]), ScenarioEnv, ScenarioEvents[20..])
  {
    var c := OnSentinelExam(r, store, [Exited, Check]);
    assert Step(Synchronized, c, ScenarioEnv, Event(1, false)) == Ok(OnSentinelExam(r, store, [Exited, Exited])) by {
      assert c.pcs[1 := Exited] == [Exited, Exited];
    }
    assert ScenarioEvents[19] == Event(1, false);
    RunFrom(Synchronized, c, ScenarioEnv, ScenarioEvents, 19);
  }

  /** The last claim and mark, the empty claim, the advance onto the sentinel
      exam and both exits. */
  lemma ScenarioFinish(r: Rubric, store: seq<Byte>)
    ensures Run(Synchronized, OnFirstExam(r, store, [Done, Done, Done, Done, NotStarted], [Claiming, Check]), ScenarioEnv, ScenarioEvents[14..]) ==
      Ok(OnSentinelExam(r, store, [Exited, Exited]))
  {
    assert |ScenarioEvents[20..]| == 0;
    ScenarioStep14(r, store);
    ScenarioStep15(r, store);
    ScenarioStep16(r, store);
    ScenarioStep17(r, store);
    ScenarioStep18(r, store);
    ScenarioStep19(r, store);
  }

  /** The next three claims and marks. */
  lemma ScenarioMoreMarks(r: Rubric, store: seq<Byte>)
    ensures Run(Synchronized, OnFirstExam(r, store, [Done, NotStarted, NotStarted, NotStarted, NotStarted], [Claiming, Check]), ScenarioEnv, ScenarioEvents[8..]) ==
      Ok(OnSentinelExam(r, store, [Exited, Exited]))
  {
    ScenarioStep8(r, store);
    ScenarioStep9(r, store);
    ScenarioStep10(r, store);
    ScenarioStep11(r, store);
    ScenarioStep12(r, store);
    ScenarioStep13(r, store);
    ScenarioFinish(r, store);
  }

  /** The end of the review and the first two claims and marks. */
  lemma ScenarioFirstMarks(r: Rubric, store: seq<Byte>)
    ensures Run(Synchronized, OnFirstExam(r, store, [NotStarted, NotStarted, NotStarted, NotStarted, NotStarted], [Review(2), Check]), ScenarioEnv, ScenarioEvents[3..]) ==
      Ok(OnSentinelExam(r, store, [Exited, Exited]))
  {
    ScenarioStep3(r, store);
    ScenarioStep4(r, store);
    ScenarioStep5(r, store);
    ScenarioStep6(r, store);
    ScenarioStep7(r, store);
    ScenarioMoreMarks(r, store);
  }

  /** The run ends with the first exam fully marked, the cursor on the
      second exam, the sentinel student loaded, the run finished, both
      workers exited and the rubric file holding the one correction. */
  lemma TwoExamScenario(r: Rubric, store: seq<Byte>)
    ensures Run(Synchronized, Config(State(r, 1001, [NotStarted, NotStarted, NotStarted, NotStarted, NotStarted], 0, false), store, [Check, Check]), ScenarioEnv, ScenarioEvents) ==
      Ok(Config(State(Corrected1(r), SENTINEL_STUDENT, AllNotStarted, 1, true),
                SaveRubric(Corrected1(r)), [Exited, Exited]))
  {
    assert ScenarioEvents[0..] == ScenarioEvents;
    ScenarioStep0(r, store);
    ScenarioStep1(r, store);
    ScenarioStep2(r, store);
    ScenarioFirstMarks(Corrected1(r), SaveRubric(Corrected1(r)));
  }
}
